=== FILE: README.md ===
# BFS / Dijkstra grid visualizer — a Dafny model

The program is a pygame window showing a 50 × 50 grid. The user places
a start cell, an end cell and barrier cells with the mouse. Pressing
space runs a shortest-path search from start to end on the 4-connected
grid. As the search runs it tags discovered cells Open, expanded cells
Closed and the final path Path, and it redraws the window after every
step. The source holds two searches:

- `bfs`: a FIFO queue;
- `dijkstra`: a priority queue with unit edge weights. This is the one
  the event loop calls.

This project models the program without its window, as follows:

- **Cells and the grid** (`grid.dfy`). A cell is a `Node` with
  coordinates, a pixel size, the grid dimension and a state tag. The
  source keeps the state as a colour; `Colour` is that projection, and
  `ColourInjective` shows the projection loses nothing. The other
  pieces are `make_grid`, the tag setters and `update_neighbours`.
- **Pixels** (`pixels.dfy`). `get_clicked_pos` maps a pixel to a cell.
  This file also holds its round trip with a cell's pixel square.
- **Walks** (`walks.dfy`). Walks over the neighbour graph, reachability
  and shortest distance. These are the independent reference that the
  searches are judged against.
- **Shared search pieces** (`search.dfy`, `explore.dfy`). The
  neighbour scan, the tags a search may write, and the invariant both
  searches keep. The invariant says:
  - every discovered cell has a predecessor one step closer;
  - recorded distances bound every walk from below;
  - the tags follow the discovered and expanded sets.
- **Path reconstruction** (`reconstruct.dfy`): `reconstruct_path`.
- **The searches** (`bfs.dfy`, `dijkstra.dfy`). The `draw` callback
  becomes a counter of calls. `float('inf')` becomes `None`. The
  priority queue becomes a multiset of `(distance, cell)` entries.
  `Node.__lt__` always answers False, so entries of equal distance are
  unordered; a pop therefore hands out *any* entry of least distance.
  `agree.dfy` runs both searches on one grid and relates their answers.
- **The event loop** (`placement.dfy`). `main`'s handling of the quit
  event, the left and right mouse buttons, space and `c`. It uses the
  constants `ROWS = 50` and `WIDTH = 750`.

Both searches take the grid as it is when they start. Their neighbour
lists are `Neighbours` of that grid, which is what `main` recomputes
right before calling `dijkstra`. The searches never add or remove
barriers, so those lists stay valid for the whole run.

Points where the program's behaviour is easy to misread:

- `dijkstra` returns `True` when it reaches the end. When its queue
  empties it falls off its end and returns `None`, not `False`. The
  model's result is `Option<bool>`: `Some(true)` or `None`.
- A cell joins `visited` when it is enqueued, not when it is dequeued.
  `start` only joins `visited` after the first dequeue. Neither changes
  which cells get expanded, and the invariants record both facts.
- A quit event during a search calls `pygame.quit()`, which
  de-initialises pygame. The next `draw()` or event poll then raises,
  and that exception ends the program. Usually that happens inside the
  search, which then returns no result. When start is end, no `draw()`
  follows the quit: the search returns `True`, and `main`'s next
  pygame call raises. The model leaves this abort path out.
- The trail `reconstruct_path` tags includes the start cell, which is
  then re-tagged Start. So the number of `draw` calls during
  reconstruction equals the shortest distance. The trail cells left
  tagged Path number one less. Cells tagged Path by an earlier run that
  this search does not reach keep that tag (`Explore.PathTags`).
- The window title says "A*", but the heuristic `h` is never called.
  `Grid.H` defines it and adjacency is stated with it. On a grid without
  barriers it equals the shortest distance (`Walks.NoBarrierDistance`).

## Model

| member | source | states |
|---|---|---|
| Grid.ColourInjective | breadth_first_search_visualization.py:10-18 | the seven state colours are pairwise distinct, so every `is_...` colour test is a test of the tag |
| Grid.MakeGrid | breadth_first_search_visualization.py:181-191 | `make_grid(rows, width)` has `rows` rows of `rows` cells (none for negative `rows`); cell `[i][j]` knows row `i`, column `j` and the dimension; every cell is `width // rows` pixels wide and Empty |
| Grid.FloorDiv | breadth_first_search_visualization.py:182 | Python's `//` for either sign of divisor: the quotient brackets the dividend between consecutive multiples of the divisor |
| Grid.SetState | breadth_first_search_visualization.py:48-67 | every setter overwrites exactly one cell's tag: that cell gets the new tag and every other cell is unchanged |
| Grid.SetStateTwice | breadth_first_search_visualization.py:48-67 | setting a cell's tag twice is the same as setting it once to the second tag |
| Grid.SetStateSame | breadth_first_search_visualization.py:48-67 | setting a cell to the tag it already has changes nothing |
| Grid.Neighbours | breadth_first_search_visualization.py:72-85 | `update_neighbours` lists exactly the in-bounds, orthogonally adjacent, non-barrier cells, at most four, ordered up, down, left, right |
| Grid.NeighboursDistinct | breadth_first_search_visualization.py:72-85 | a neighbour list never repeats a cell |
| Grid.DistinctCellsBound | breadth_first_search_visualization.py:185-189 | a list of distinct cells of an n × n grid has at most n² entries |
| Pixels.ClickedPos | breadth_first_search_visualization.py:214-221 | `get_clicked_pos` selects the cell whose square contains the pixel (first coordinate gives the row); it fails exactly when the window is narrower than the row count, where `width // rows` is 0 and the division by it raises |
| Pixels.ClickRoundTrip | breadth_first_search_visualization.py:29-30 | a pixel at offset `(a, b)` inside a cell's square, where the square is drawn at `(row * gap, col * gap)` and `0 <= a, b < gap`, maps back to that cell |
| Pixels.ClickInBounds | breadth_first_search_visualization.py:214-221 | every pixel inside the `rows * gap` square the grid covers selects a cell of the grid |
| Walks.ShortestUnique | breadth_first_search_visualization.py:110-178 | the shortest walk length between two cells is unique, so any two searches reporting a shortest path report the same length |
| Walks.WalkManhattan | breadth_first_search_visualization.py:72-85 | each neighbour step changes the Manhattan distance `h` by one, so a walk covers no more distance than it has steps |
| Walks.StaircaseWalk | breadth_first_search_visualization.py:72-85 | on a grid without barriers, stepping repeatedly towards the target is a walk |
| Walks.NoBarrierDistance | breadth_first_search_visualization.py:95-99 | on a grid without barriers the shortest distance between two cells is the Manhattan distance `h` |
| Walks.CornerToCorner | breadth_first_search_visualization.py:181-191 | on a 5 × 5 grid without barriers, opposite corners are 8 steps apart |
| Walks.Unreachable | breadth_first_search_visualization.py:115-140 | once no discovered cell has an undiscovered neighbour, no undiscovered cell is reachable |
| Walks.ChainWalk | breadth_first_search_visualization.py:102-107 | a predecessor chain whose links are neighbour links, read backwards, is a walk to the end cell with one step per chain entry |
| Search.UnvisitedIn | breadth_first_search_visualization.py:128-133 | the cells a neighbour scan enqueues are exactly the listed neighbours not yet visited |
| Search.ChainShortest | breadth_first_search_visualization.py:102-107 | the chain followed back from the end stops at the start and is a shortest path |
| Reconstruct.ReconstructPath | breadth_first_search_visualization.py:102-107 | `reconstruct_path` tags exactly the predecessor chain from `came_from[end]` up to the first cell without a predecessor as Path, never the end cell, and calls `draw` once per tagged cell |
| Explore.Step | breadth_first_search_visualization.py:128-138 | expanding a frontier cell of least recorded distance keeps the search invariant: new cells one step further, predecessor links along edges, distances as lower bounds, tags Open/Closed |
| Explore.Settled | breadth_first_search_visualization.py:128-133 | every recorded distance is the shortest distance from the start |
| Explore.SearchFacts | breadth_first_search_visualization.py:102-140 | every `came_from` link joins a cell to one of its neighbours; every expanded cell has all its neighbours discovered; once every discovered cell is expanded, the discovered cells are exactly the cells reachable from the start |
| Explore.Exhausted | breadth_first_search_visualization.py:115-140 | when every discovered cell has been expanded without meeting the end, the end is unreachable |
| Explore.Finish | breadth_first_search_visualization.py:122-126 | on reaching the end: the reconstructed trail is a shortest path back to the start; it is empty exactly when start is end; the trail is tagged Path, then start Start and end End |
| Explore.PathTags | breadth_first_search_visualization.py:102-125 | after a successful search the Path cells are exactly the trail minus the start, plus undiscovered cells already Path from an earlier run; a `k`-step path leaves `k - 1` Path cells |
| Explore.FinalRetag | breadth_first_search_visualization.py:122-140 | a search changes the tag of a cell other than start and end only to Open, Closed or Path, and never on a barrier |
| Bfs.ScanNeighbours | breadth_first_search_visualization.py:128-133 | `bfs`'s neighbour loop enqueues each unvisited neighbour once, in the order of the neighbour list (up, down, left, right), marks it visited, links it to the current cell and tags it Open |
| Bfs.FifoStep | breadth_first_search_visualization.py:120-133 | the FIFO queue keeps recorded distances non-decreasing along enqueue order, spanning at most one step from head to tail |
| Bfs.HeadIsLeast | breadth_first_search_visualization.py:120 | the dequeued head is a frontier cell of least recorded distance |
| Bfs.ManhattanOrder | breadth_first_search_visualization.py:120-133 | on a grid without barriers `bfs` enqueues, and so dequeues, cells in non-decreasing Manhattan distance from the start |
| Bfs.Expand | breadth_first_search_visualization.py:120-138 | one pass of the `bfs` loop keeps the invariant and dequeues exactly one cell |
| Bfs.Bfs | breadth_first_search_visualization.py:110-140 | `bfs` returns True iff the end is reachable, with a shortest path tagged: every `came_from` link joins two neighbours, so the trail read from start to end is a walk of the shortest length; every expanded cell has all its neighbours enqueued; on False the enqueued cells are exactly the cells reachable from the start; each cell is enqueued at most once, at most rows² in all, and cells are enqueued (so dequeued) in non-decreasing shortest distance; `start` never gets a predecessor; `draw` runs once per expansion plus once per path cell; on False the start and end tags are untouched |
| Dijkstra.Pop | breadth_first_search_visualization.py:91-92 | `queue.get()` removes some entry of least distance, with no order among equal distances since `__lt__` is always False |
| Dijkstra.GuardPasses | breadth_first_search_visualization.py:165-172 | an unvisited neighbour still has distance infinity, so the guard `ndist < distance[neighbour]` always passes |
| Dijkstra.ScanNeighbours | breadth_first_search_visualization.py:165-173 | `dijkstra`'s neighbour loop enqueues `(cdist + 1, n)` for exactly the unvisited neighbours, records that distance, links them and tags them Open |
| Dijkstra.PopFacts | breadth_first_search_visualization.py:156 | the popped entry is an unexpanded discovered cell; `cdist == distance[current]`; no frontier cell is closer; no pop is below the previous one |
| Dijkstra.QueuedStep | breadth_first_search_visualization.py:156-170 | after a pop and the pushes of one pass, the queue holds exactly one entry per discovered, unexpanded cell, at its recorded distance |
| Dijkstra.DistanceLinks | breadth_first_search_visualization.py:168-171 | for every key `n` of `came_from`, `distance[n] == distance[came_from[n]] + 1` |
| Dijkstra.DistanceSettled | breadth_first_search_visualization.py:147-169 | a cell's distance is finite iff it was discovered, and then it is the shortest distance from the start |
| Dijkstra.Drained | breadth_first_search_visualization.py:151-178 | when the queue runs empty the end is unreachable, every discovered cell was expanded, and start and end keep their tags |
| Dijkstra.Dijkstra | breadth_first_search_visualization.py:143-178 | `dijkstra` returns True iff the end is reachable and otherwise None, never False; it tags a shortest path: every `came_from` link joins two neighbours, so the trail read from start to end is a walk of the shortest length; every expanded cell has all its neighbours discovered; on None every discovered cell was expanded and the discovered cells are exactly the cells reachable from the start; each cell is enqueued at most once; popped distances never decrease and each is the popped cell's shortest distance; the `distance` and `came_from` relations hold; `draw` runs once per pop plus once per path cell |
| Agree.BothSearches | breadth_first_search_visualization.py:110-178 | on the same grid `bfs` and `dijkstra` agree on whether the end is reachable and on the length of the tagged path |
| Placement.PlacedUnique | breadth_first_search_visualization.py:239-265 | while the placement invariant holds there is at most one Start cell, at most one End cell, and the start differs from the end |
| Placement.Cell | breadth_first_search_visualization.py:240-242 | in the 750-pixel window with 50 rows, every pixel selects a cell of the grid |
| Placement.LeftClick | breadth_first_search_visualization.py:239-253 | a left click places the start, else the end, else a barrier, and never turns the current start or end into anything else; the placement invariant is kept |
| Placement.RightClick | breadth_first_search_visualization.py:255-265 | a right click resets the cell to Empty and forgets it as start or end; the placement invariant is kept |
| Placement.RightUndoesLeft | breadth_first_search_visualization.py:239-265 | a right click on an empty cell undoes a left click there |
| Placement.RunSearch | breadth_first_search_visualization.py:268-274 | space with both ends placed runs `dijkstra` on `main`'s own grid: its result reports reachability; the trail it returns, read from start to end, is a walk of the shortest length; the discovered and expanded cells it returns obey `dijkstra`'s closure facts (on None they are exactly the reachable cells); the grid afterwards carries the search's tags over those cells (Open, Closed and Path as `dijkstra` left them); and the placement invariant survives those tags |
| Placement.Handle | breadth_first_search_visualization.py:235-279 | one event: quit clears `run`; the mouse branches act; space searches exactly when both ends are set, and the search's result, trail, discovered and expanded cells and the grid afterwards are as `Placement.RunSearch` states; `c` rebuilds an all-Empty grid and forgets both ends; space without both ends, and any other key or event, change nothing beyond the mouse action |
| Placement.Initial | breadth_first_search_visualization.py:225-231 | `main` starts from a fresh all-Empty grid with no start and no end |
| Placement.HandleBatch | breadth_first_search_visualization.py:235-279 | handling every event of one `pygame.event.get()` batch keeps the placement invariant and leaves `run` set exactly when it was set and the batch held no quit event |
| Placement.Run | breadth_first_search_visualization.py:233-279 | the event loop keeps the placement invariant; no batch before the last one handled holds a quit event, so it stops after the first batch that does, and it runs on while there is none |

## Left out

- The pygame window, caption, `display.update`, `Node.draw`,
  `draw_grid` and `draw` (lines 5-7, 87-89, 194-211): output only. Each
  `draw()` call is counted instead.
- Event polling and `pygame.quit()` inside the two search loops (lines
  116-118, 152-154). A quit there de-initialises pygame. The search's
  next `draw()` or event poll then raises and ends the program. The
  model has no such abort path: its searches always run to a result.
- The RGB values matter only through `Colour`'s distinctness.
- `float('inf')` and float arithmetic: distances are naturals and
  infinity is `None`.
- The internals of `PriorityQueue`: it is a multiset, and popping takes
  any least entry.
- The module-level `main(WIN, WIDTH)` call (line 284). The window size
  is the constant `WIDTH`.
- Grid.MakeGrid: `rows == 0` is excluded by its precondition, because
  `width // rows` raises a division by zero there.
- Reconstruct.ReconstructPath: takes a ghost ranking under which every
  predecessor link descends. Every map the searches build has one. On a
  cyclic map the source would loop forever, and the model does not cover
  that case.
- Placement.Handle: the mouse position is assumed inside the window
  (`InWindow`). A position outside it would index past the grid or wrap
  to a negative index, and neither case is modelled.
- Placement.Run: mouse button state and position are part of each event
  (`Input`), not read from a live device. The first batch after a quit
  is not modelled, because the loop has ended by then.
- The heuristic `h` (lines 95-99) is never called by the program. It
  appears as `Grid.H`, the distance adjacency is defined by. The
  lemmas about it (`Walks.NoBarrierDistance`, `Bfs.ManhattanOrder`)
  describe the searches on barrier-free grids.

=== FILE: agree.dfy ===
/** The two searches side by side: on the same grid, start and end, `bfs`
    and `dijkstra` agree on whether the end is reachable and, when it is,
    on the length of the path they tag. */
module Agree {
  import opened Wrappers
  import opened Grid
  import opened Walks
  import Bfs
  import Dijkstra

  /** Runs both searches on `grid` and reports what each found: `found`
      and `pathLen` from `bfs`, `result` and `dijkstraLen` from
      `dijkstra`. */
  method BothSearches(grid: Grid, start: Pos, end: Pos)
    returns (found: bool, result: Option<bool>, pathLen: nat, dijkstraLen: nat)
    requires Wf(grid) && InBounds(grid, start)
    ensures found <==> result == Some(true)
    ensures !found ==> result == None && pathLen == 0 && dijkstraLen == 0
    ensures found ==> pathLen == dijkstraLen && ShortestIs(grid, start, end, pathLen)
  {
    var g, cameFrom, order, trail, draws;
    ghost var expanded, dist;
    found, g, cameFrom, order, trail, draws, expanded, dist := Bfs.Bfs(grid, start, end);
    var g', cameFrom', distance', order', trail', draws', expanded', pops';
    result, g', cameFrom', distance', order', trail', draws', expanded', pops' := Dijkstra.Dijkstra(grid, start, end);
    pathLen, dijkstraLen := |trail|, |trail'|;
    if found {
      ShortestUnique(grid, start, end, pathLen, dijkstraLen);
    }
  }
}

=== FILE: bfs.dfy ===
/** Breadth-first search (`bfs`): a FIFO queue seeded with the start cell;
    a neighbour is marked visited, given its predecessor and tagged Open
    in the same step it is enqueued, and the `draw` callback runs once per
    expanded cell. */
module Bfs {
  import opened Grid
  import opened Walks
  import opened Search
  import opened Reconstruct
  import opened Explore

  /** The relation the neighbour loop keeps after looking at the first `k`
      neighbours in `nbs`: the primed state is the unprimed one with the
      unvisited neighbours seen so far enqueued, marked visited, linked to
      `current` and tagged Open. */
  ghost predicate Scanned(nbs: seq<Pos>, current: Pos, k: nat,
                          g: Grid, queue: seq<Pos>, visited: set<Pos>, cameFrom: map<Pos, Pos>,
                          g': Grid, queue': seq<Pos>, visited': set<Pos>, cameFrom': map<Pos, Pos>, discovered: seq<Pos>)
  {
    && k <= |nbs|
    && discovered == Unvisited(nbs, visited, k)
    && queue' == queue + discovered
    && visited' == visited + Elems(discovered)
    && LinkedOver(cameFrom, cameFrom', discovered, current)
    && OpenedOver(g, g', discovered)
  }

  /** One pass of the neighbour loop body, for the neighbour `nbs[k]`. */
  method Visit(nbs: seq<Pos>, current: Pos, k: nat,
               ghost g: Grid, ghost queue: seq<Pos>, ghost visited: set<Pos>, ghost cameFrom: map<Pos, Pos>,
               g': Grid, queue': seq<Pos>, visited': set<Pos>, cameFrom': map<Pos, Pos>, discovered: seq<Pos>)
    returns (g'': Grid, queue'': seq<Pos>, visited'': set<Pos>, cameFrom'': map<Pos, Pos>, discovered': seq<Pos>)
    requires k < |nbs| && Distinct(nbs) && Wf(g) && InBounds(g, nbs[k])
    requires Scanned(nbs, current, k, g, queue, visited, cameFrom, g', queue', visited', cameFrom', discovered)
    ensures Scanned(nbs, current, k + 1, g, queue, visited, cameFrom, g'', queue'', visited'', cameFrom'', discovered')
  {
    var nb := nbs[k];
    g'', queue'', visited'', cameFrom'', discovered' := g', queue', visited', cameFrom', discovered;
    UnvisitedFresh(nbs, visited, k);
    assert nb in visited' <==> nb in visited;
    assert Unvisited(nbs, visited, k + 1) == if nb in visited then discovered else discovered + [nb];
    if nb !in visited' {
      assert queue' + [nb] == queue + (discovered + [nb]);
      queue'' := queue' + [nb];
      LinkStep(cameFrom, cameFrom', discovered, current, nb);
      cameFrom'' := cameFrom'[nb := current];
      visited'' := visited' + {nb};
      OpenStep(g, g', discovered, nb);
      g'' := SetState(g', nb, Open);
      ElemsAppend(discovered, [nb]);
      assert Elems([nb]) == {nb};
      discovered' := discovered + [nb];
    }
  }

  /** `for neighbour in current.neighbours: if neighbour not in visited:
      ...`: the whole neighbour loop of one expansion. */
  method Scan(nbs: seq<Pos>, current: Pos, g: Grid, queue: seq<Pos>, visited: set<Pos>, cameFrom: map<Pos, Pos>)
    returns (g': Grid, queue': seq<Pos>, visited': set<Pos>, cameFrom': map<Pos, Pos>, discovered: seq<Pos>)
    requires Distinct(nbs) && Wf(g) && forall i :: 0 <= i < |nbs| ==> InBounds(g, nbs[i])
    ensures Scanned(nbs, current, |nbs|, g, queue, visited, cameFrom, g', queue', visited', cameFrom', discovered)
  {
    g', queue', visited', cameFrom', discovered := g, queue, visited, cameFrom, [];
    var k := 0;
    while k < |nbs|
      invariant Scanned(nbs, current, k, g, queue, visited, cameFrom, g', queue', visited', cameFrom', discovered)
    {
      g', queue', visited', cameFrom', discovered := Visit(nbs, current, k, g, queue, visited, cameFrom, g', queue', visited', cameFrom', discovered);
      k := k + 1;
    }
  }

  /** The recorded distances along `order` never decrease. */
  ghost predicate Sorted(order: seq<Pos>, d: map<Pos, nat>)
    requires Elems(order) <= d.Keys
  {
    forall i, j :: 0 <= i < j < |order| ==> d[order[i]] <= d[order[j]]
  }

  /** The neighbour loop over `current.neighbours`, the list
      `update_neighbours` computed on `grid`. */
  method ScanNeighbours(grid: Grid, g: Grid, current: Pos, queue: seq<Pos>, visited: set<Pos>, cameFrom: map<Pos, Pos>)
    returns (g': Grid, queue': seq<Pos>, visited': set<Pos>, cameFrom': map<Pos, Pos>, found: seq<Pos>)
    requires Wf(grid) && Wf(g) && |g| == |grid| && InBounds(grid, current)
    ensures Discovers(grid, current, visited, found)
    ensures found == Unvisited(Neighbours(grid, current), visited, |Neighbours(grid, current)|)
    ensures queue' == queue + found && visited' == visited + Elems(found)
    ensures LinkedOver(cameFrom, cameFrom', found, current) && OpenedOver(g, g', found)
  {
    var nbs := Neighbours(grid, current);
    NeighboursDistinct(grid, current);
    g', queue', visited', cameFrom', found := Scan(nbs, current, g, queue, visited, cameFrom);
    UnvisitedDiscovers(grid, current, visited);
  }

  /** Cells leave the queue in the order they entered it, and the recorded
      distances along that order never decrease and span at most one step
      from the head of the queue to its tail. */
  ghost predicate Fifo(order: seq<Pos>, head: nat, d: map<Pos, nat>)
    requires Elems(order) <= d.Keys
  {
    && Sorted(order, d)
    && (head < |order| ==> d[Last(order)] <= d[order[head]] + 1)
  }

  /** The state of `bfs` at the top of its loop: `order` lists every cell
      ever enqueued, the first `head` of them have been dequeued and
      expanded, the rest form the queue; `visited` is still empty before the
      first dequeue, since the program only adds `start` to it after
      dequeuing. */
  ghost predicate BfsInv(grid: Grid, g: Grid, start: Pos, end: Pos, cameFrom: map<Pos, Pos>, order: seq<Pos>,
                         head: nat, done: set<Pos>, d: map<Pos, nat>, queue: seq<Pos>, visited: set<Pos>, draws: nat)
  {
    && head <= |order| && queue == order[head..] && done == Elems(order[..head])
    && SearchInv(grid, g, start, end, cameFrom, order, done, d)
    && Fifo(order, head, d)
    && (head == 0 ==> order == [start] && visited == {})
    && (head > 0 ==> visited == Elems(order))
    && draws == head
  }

  /** Appending cells at distance `m + 1`, no less than the last, keeps the
      distances sorted. */
  lemma SortedAppend(order: seq<Pos>, d: map<Pos, nat>, found: seq<Pos>, m: nat)
    requires Elems(order) == d.Keys && |order| > 0 && Sorted(order, d) && d[Last(order)] <= m + 1
    requires Elems(order) !! Elems(found)
    ensures var d' := Extend(d, Elems(found), m + 1);
            Elems(order + found) == d'.Keys && Sorted(order + found, d')
  {
    var d' := Extend(d, Elems(found), m + 1);
    var o := order + found;
    ElemsAppend(order, found);
    forall i, j | 0 <= i < j < |o|
      ensures d'[o[i]] <= d'[o[j]]
    {
      if j < |order| {
        assert o[i] == order[i] && o[j] == order[j] && order[i] in Elems(order) && order[j] in Elems(order);
      } else if i < |order| {
        assert o[i] == order[i] && order[i] in Elems(order);
        assert o[j] == found[j - |order|] && o[j] in Elems(found);
        assert d[order[i]] <= d[Last(order)];
      } else {
        assert o[i] == found[i - |order|] && o[j] == found[j - |order|];
      }
    }
  }

  /** The span bound of `Fifo` after dequeuing the head (at distance `m`)
      and appending cells at distance `m + 1`. */
  lemma FifoTail(order: seq<Pos>, head: nat, d: map<Pos, nat>, found: seq<Pos>, m: nat)
    requires Elems(order) == d.Keys && head < |order| && Elems(order) !! Elems(found)
    requires d[Last(order)] <= m + 1
    requires head + 1 < |order| ==> d[order[head + 1]] >= m
    ensures var d' := Extend(d, Elems(found), m + 1);
            var o := order + found;
            Elems(o) == d'.Keys && (head + 1 < |o| ==> d'[Last(o)] <= d'[o[head + 1]] + 1)
  {
    var d' := Extend(d, Elems(found), m + 1);
    var o := order + found;
    ElemsAppend(order, found);
    if head + 1 < |o| {
      assert Last(order) in Elems(order);
      assert d'[Last(o)] <= m + 1 by {
        if found != [] {
          assert Last(o) == Last(found) && Last(found) in Elems(found);
        }
      }
      assert d'[o[head + 1]] >= m by {
        if head + 1 < |order| {
          assert o[head + 1] == order[head + 1] && order[head + 1] in Elems(order);
        } else {
          assert o[head + 1] == found[0] && found[0] in Elems(found);
        }
      }
    }
  }

  /** Appending cells one step beyond the head of the queue (at distance
      `m`) keeps the distances in FIFO order. */
  lemma FifoStep(order: seq<Pos>, order': seq<Pos>, head: nat, d: map<Pos, nat>, found: seq<Pos>, m: nat)
    requires Elems(order) == d.Keys && head < |order| && Fifo(order, head, d)
    requires Elems(order) !! Elems(found)
    requires order' == order + found && m == d[order[head]]
    ensures Elems(order') == Extend(d, Elems(found), m + 1).Keys
    ensures Fifo(order', head + 1, Extend(d, Elems(found), m + 1))
  {
    SortedAppend(order, d, found, m);
    assert order[head] in Elems(order);
    if head + 1 < |order| {
      assert order[head + 1] in Elems(order);
      assert d[order[head]] <= d[order[head + 1]];
    }
    FifoTail(order, head, d, found, m);
  }

  /** The head of the queue is a frontier cell of least recorded distance. */
  lemma HeadIsLeast(order: seq<Pos>, head: nat, d: map<Pos, nat>)
    requires Distinct(order) && head < |order| && Elems(order) == d.Keys && Sorted(order, d)
    ensures order[head] in Elems(order) - Elems(order[..head])
    ensures forall f :: f in Elems(order) - Elems(order[..head]) ==> d[order[head]] <= d[f]
  {
    SplitElems(order, head);
    assert order[head] in Elems(order[head..]);
    forall f | f in Elems(order) - Elems(order[..head])
      ensures d[order[head]] <= d[f]
    {
      var j :| head <= j < |order| && order[j] == f;
    }
  }

  /** The queue and the visited set after dequeuing the head of the queue
      and enqueuing the cells of `found`. */
  lemma QueueStep(order: seq<Pos>, head: nat, found: seq<Pos>, queue: seq<Pos>)
    requires head < |order| && queue == order[head..]
    ensures queue[1..] + found == (order + found)[head + 1..]
    ensures (order + found)[..head + 1] == order[..head] + [order[head]]
    ensures Elems((order + found)[..head + 1]) == Elems(order[..head]) + {order[head]}
    ensures Elems(order) + Elems(found) == Elems(order + found)
  {
    ElemsAppend(order, found);
    var o := order + found;
    assert o[..head + 1] == order[..head] + [order[head]];
  }

  /** Expanding the head `c` of the queue keeps `BfsInv`: `found` lists the
      neighbours the scan discovered, `g1` holds the tags after the scan,
      `m` is the recorded distance of `c` and the primed parameters hold the
      state after the pass. */
  lemma ExpandKeeps(grid: Grid, g: Grid, g1: Grid, g': Grid, start: Pos, end: Pos,
                    cameFrom: map<Pos, Pos>, cameFrom': map<Pos, Pos>, order: seq<Pos>, order': seq<Pos>,
                    head: nat, head': nat, done: set<Pos>, done': set<Pos>, d: map<Pos, nat>, m: nat,
                    queue: seq<Pos>, queue': seq<Pos>, visited: set<Pos>, visited': set<Pos>,
                    draws: nat, draws': nat, found: seq<Pos>)
    requires BfsInv(grid, g, start, end, cameFrom, order, head, done, d, queue, visited, draws)
    requires |queue| > 0 && queue[0] != end && m == d[queue[0]]
    requires Discovers(grid, queue[0], visited + {start}, found)
    requires OpenedOver(g, g1, found) && LinkedOver(cameFrom, cameFrom', found, queue[0])
    requires g' == if queue[0] != start then SetState(g1, queue[0], Closed) else g1
    requires order' == order + found && done' == done + {queue[0]} && head' == head + 1 && draws' == draws + 1
    requires queue' == queue[1..] + found && visited' == visited + {start} + Elems(found)
    ensures BfsInv(grid, g', start, end, cameFrom', order', head', done', Extend(d, Elems(found), m + 1),
                   queue', visited', draws')
    ensures |order'| <= |grid| * |grid|
  {
    var c := queue[0];
    assert c == order[head];
    SeenAll(start, order, head == 0, visited);
    HeadIsLeast(order, head, d);
    Step(grid, g, g1, g', start, end, cameFrom, cameFrom', order, order', done, done', d, m, c, found);
    FifoStep(order, order', head, d, found, m);
    QueueStep(order, head, found, queue);
    ShapeBound(grid, g', start, order');
  }

  /** One pass of the `bfs` loop that does not find `end`: dequeue the head
      cell, scan its neighbours, call `draw` and close the cell unless it is
      the start. */
  method Expand(grid: Grid, g: Grid, start: Pos, end: Pos, cameFrom: map<Pos, Pos>, order: seq<Pos>,
                head: nat, ghost done: set<Pos>, ghost d: map<Pos, nat>, queue: seq<Pos>, visited: set<Pos>, draws: nat)
    returns (g': Grid, cameFrom': map<Pos, Pos>, order': seq<Pos>, head': nat, ghost done': set<Pos>,
             ghost d': map<Pos, nat>, queue': seq<Pos>, visited': set<Pos>, draws': nat)
    requires BfsInv(grid, g, start, end, cameFrom, order, head, done, d, queue, visited, draws)
    requires |queue| > 0 && queue[0] != end
    ensures BfsInv(grid, g', start, end, cameFrom', order', head', done', d', queue', visited', draws')
    ensures head' == head + 1 && |order'| <= |grid| * |grid|
  {
    var current := queue[0];
    var g1, found;
    g1, queue', visited', cameFrom', found := ScanNeighbours(grid, g, current, queue[1..], visited + {start}, cameFrom);
    draws' := draws + 1;
    g' := if current != start then SetState(g1, current, Closed) else g1;
    order' := order + found;
    ghost var m := d[current];
    d' := Extend(d, Elems(found), m + 1);
    done' := done + {current};
    head' := head + 1;
    ExpandKeeps(grid, g, g1, g', start, end, cameFrom, cameFrom', order, order', head, head', done, done', d, m,
                queue, queue', visited, visited', draws, draws', found);
  }

  /** The state before the first pass: only `start` enqueued, nothing
      visited, expanded or linked, the tags those of `grid`. */
  lemma BfsInit(grid: Grid, start: Pos, end: Pos)
    requires Wf(grid) && InBounds(grid, start)
    ensures BfsInv(grid, grid, start, end, map[], [start], 0, {}, map[start := 0], [start], {}, 0)
  {
    var d := map[start := 0];
    assert Elems([start]) == {start};
    assert [start][..0] == [];
    forall w | IsWalk(grid, w) && w[0] == start && Last(w) in d
      ensures |w| - 1 >= d[Last(w)]
    {
    }
  }

  /** Every recorded distance is the shortest distance from the start. */
  lemma BfsSettled(grid: Grid, g: Grid, start: Pos, end: Pos, cameFrom: map<Pos, Pos>, order: seq<Pos>,
                   head: nat, done: set<Pos>, d: map<Pos, nat>, queue: seq<Pos>, visited: set<Pos>, draws: nat)
    requires BfsInv(grid, g, start, end, cameFrom, order, head, done, d, queue, visited, draws)
    ensures forall v :: v in d ==> ShortestIs(grid, start, v, d[v])
  {
    forall v | v in d
      ensures ShortestIs(grid, start, v, d[v])
    {
      Settled(grid, g, start, end, cameFrom, order, done, d, v);
    }
  }

  /** On a grid without barriers `bfs` enqueues, and so expands, cells in
      non-decreasing Manhattan distance from the start. */
  lemma ManhattanOrder(grid: Grid, start: Pos, order: seq<Pos>, dist: map<Pos, nat>)
    requires Wf(grid) && InBounds(grid, start)
    requires forall p :: InBounds(grid, p) ==> StateAt(grid, p) != Barrier
    requires forall k :: 0 <= k < |order| ==> InBounds(grid, order[k])
    requires dist.Keys == Elems(order) && Sorted(order, dist)
    requires forall v :: v in dist ==> ShortestIs(grid, start, v, dist[v])
    ensures forall i, j :: 0 <= i < j < |order| ==> H(start, order[i]) <= H(start, order[j])
  {
    forall k | 0 <= k < |order|
      ensures dist[order[k]] == H(start, order[k])
    {
      assert order[k] in Elems(order);
      NoBarrierDistance(grid, start, order[k]);
      ShortestUnique(grid, start, order[k], dist[order[k]], H(start, order[k]));
    }
  }

  /** The search's tags and results when `end` is at the head of the queue. */
  method BfsFound(grid: Grid, g: Grid, start: Pos, end: Pos, cameFrom: map<Pos, Pos>, order: seq<Pos>,
                  head: nat, ghost done: set<Pos>, ghost d: map<Pos, nat>, queue: seq<Pos>, visited: set<Pos>, draws: nat)
    returns (g': Grid, trail: seq<Pos>, draws': nat)
    requires BfsInv(grid, g, start, end, cameFrom, order, head, done, d, queue, visited, draws)
    requires |queue| > 0 && queue[0] == end
    ensures Wf(g') && |g'| == |grid|
    ensures draws' == head + |trail|
    ensures Reachable(grid, start, end) && ShortestIs(grid, start, end, |trail|)
    ensures trail == [] <==> start == end
    ensures trail != [] ==> IsChain(cameFrom, end, trail) && Last(trail) == start
    ensures Distinct(trail) && end !in trail
    ensures forall p :: InBounds(grid, p) ==>
              StateAt(g', p) == FinalTag(grid, start, end, true, order, Elems(order[..head]), trail, p)
    ensures OnlySearchTags(grid, g', start, end)
  {
    assert end == order[head];
    var k;
    g', trail, k := Finish(grid, g, start, end, cameFrom, order, done, d);
    draws' := draws + k;
    FinalRetag(grid, g', start, end, true, cameFrom, order, done, d, trail);
    ghost var w :| WalkFromTo(grid, w, start, end) && |w| - 1 == |trail|;
  }

  /** `bfs(draw, grid, start, end)`, where `grid` holds the tags (and so
      the neighbour lists) when the search starts. `found` is the returned
      boolean, `g` the tags afterwards, `order` every cell ever enqueued in
      enqueue order, `draws` the number of `draw` calls and `expanded` the
      number of cells dequeued and expanded before the search returned. */
  method Bfs(grid: Grid, start: Pos, end: Pos)
    returns (found: bool, g: Grid, cameFrom: map<Pos, Pos>, order: seq<Pos>, trail: seq<Pos>, draws: nat,
             ghost expanded: nat, ghost dist: map<Pos, nat>)
    requires Wf(grid) && InBounds(grid, start)
    ensures found <==> Reachable(grid, start, end)
    ensures found ==> ShortestIs(grid, start, end, |trail|)
    ensures found ==> (trail == [] <==> start == end)
    ensures found && trail != [] ==> IsChain(cameFrom, end, trail) && Last(trail) == start
    ensures Distinct(trail) && end !in trail
    ensures !found ==> trail == [] && expanded == |order|
    ensures |order| > 0 && order[0] == start && Distinct(order) && |order| <= |grid| * |grid|
    ensures start !in cameFrom && cameFrom.Keys == Elems(order) - {start}
    ensures expanded <= |order| && draws == expanded + |trail|
    ensures dist.Keys == Elems(order) && Sorted(order, dist)
    ensures forall k :: 0 <= k < |order| ==> InBounds(grid, order[k])
    ensures forall v :: v in dist ==> ShortestIs(grid, start, v, dist[v])
    ensures forall v {:trigger cameFrom[v]} :: v in cameFrom ==> Edge(grid, cameFrom[v], v)
    ensures found && trail != [] ==> WalkFromTo(grid, Forwards(trail, end), start, end)
    ensures NeighboursWithin(grid, Elems(order[..expanded]), Elems(order))
    ensures !found ==> forall v :: InBounds(grid, v) ==> (v in Elems(order) <==> Reachable(grid, start, v))
    ensures Wf(g) && |g| == |grid|
    ensures forall p :: InBounds(grid, p) ==>
              StateAt(g, p) == FinalTag(grid, start, end, found, order, Elems(order[..expanded]), trail, p)
    ensures OnlySearchTags(grid, g, start, end)
    ensures !found ==> StateAt(g, start) == StateAt(grid, start)
    ensures !found && InBounds(grid, end) ==> StateAt(g, end) == StateAt(grid, end)
  {
    BfsInit(grid, start, end);
    g, cameFrom, order, trail, draws := grid, map[], [start], [], 0;
    var head: nat, queue, visited := 0, [start], {};
    ghost var done: set<Pos>, d: map<Pos, nat> := {}, map[start := 0];
    while |queue| > 0
      invariant BfsInv(grid, g, start, end, cameFrom, order, head, done, d, queue, visited, draws)
      invariant |order| <= |grid| * |grid|
      decreases |grid| * |grid| - head
    {
      if queue[0] == end {
        found, expanded, dist := true, head, d;
        BfsSettled(grid, g, start, end, cameFrom, order, head, done, d, queue, visited, draws);
        SearchFacts(grid, g, start, end, cameFrom, order, done, d);
        g, trail, draws := BfsFound(grid, g, start, end, cameFrom, order, head, done, d, queue, visited, draws);
        if trail != [] {
          ChainWalk(grid, cameFrom, end, trail);
        }
        return;
      }
      g, cameFrom, order, head, done, d, queue, visited, draws :=
        Expand(grid, g, start, end, cameFrom, order, head, done, d, queue, visited, draws);
    }
    found, expanded, dist := false, head, d;
    BfsSettled(grid, g, start, end, cameFrom, order, head, done, d, queue, visited, draws);
    assert order[..head] == order;
    Exhausted(grid, g, start, end, cameFrom, order, done, d);
    SearchFacts(grid, g, start, end, cameFrom, order, done, d);
    FinalRetag(grid, g, start, end, false, cameFrom, order, done, d, trail);
  }
}

=== FILE: dijkstra.dfy ===
/** Dijkstra's search (`dijkstra`) on the unit-weight neighbour graph: a
    priority queue of `(distance, node)` entries seeded with `(0, start)`,
    a table `distance` with `float('inf')` for every node but the start,
    and a relaxation `ndist < distance[neighbour]` guarding each enqueue.
    `Node.__lt__` always answers False, so two entries of equal distance
    are unordered and the queue may hand out either: a pop is modelled as
    the choice of any entry of least distance. */
module Dijkstra {
  import opened Wrappers
  import opened Grid
  import opened Walks
  import opened Search
  import opened Reconstruct
  import opened Explore

  /** An entry `(priority, node)` of the priority queue. */
  datatype Entry = Entry(priority: nat, node: Pos)

  /** `x < d` where `None` stands for `float('inf')`. */
  predicate Below(x: nat, d: Option<nat>)
  {
    d.None? || x < d.value
  }

  predicate NonDecreasing(s: seq<nat>)
  {
    forall i, j :: 0 <= i < j < |s| ==> s[i] <= s[j]
  }

  /** The entries `(k, v)` for the cells `v` of `s`. */
  function Entries(s: seq<Pos>, k: nat): multiset<Entry>
  {
    if s == [] then multiset{} else Entries(s[..|s| - 1], k) + multiset{Entry(k, Last(s))}
  }

  /** Each cell of a list without repetitions contributes exactly one entry. */
  lemma {:induction false} EntriesCount(s: seq<Pos>, k: nat)
    requires Distinct(s)
    ensures forall e :: Entries(s, k)[e] == if e.node in s && e.priority == k then 1 else 0
  {
    if s != [] {
      var pre := s[..|s| - 1];
      EntriesCount(pre, k);
      assert s == pre + [Last(s)];
      assert Last(s) !in pre by {
        forall i | 0 <= i < |pre|
          ensures pre[i] != Last(s)
        {
          assert pre[i] == s[i];
        }
      }
    }
  }

  /** `queue.get()` on a non-empty queue: some entry of least priority,
      removed from the queue. */
  method Pop(pq: multiset<Entry>) returns (cdist: nat, current: Pos, rest: multiset<Entry>)
    requires |pq| > 0
    ensures Entry(cdist, current) in pq
    ensures forall e :: e in pq ==> cdist <= e.priority
    ensures rest == pq - multiset{Entry(cdist, current)}
  {
    ghost var w :| w in pq;
    MinExists(pq, w);
    var e :| e in pq && forall x :: x in pq ==> e.priority <= x.priority;
    cdist, current := e.priority, e.node;
    rest := pq - multiset{e};
  }

  /** A multiset of entries holding `w` has an entry of least priority. */
  lemma {:induction false} MinExists(pq: multiset<Entry>, w: Entry)
    requires w in pq
    ensures exists e :: e in pq && forall x :: x in pq ==> e.priority <= x.priority
    decreases w.priority
  {
    if x :| x in pq && x.priority < w.priority {
      MinExists(pq, x);
    } else {
      assert forall x :: x in pq ==> w.priority <= x.priority;
    }
  }

  /** The table `distance'` after the neighbour loop recorded `k` for the
      cells of `found`, starting from `distance`. */
  ghost predicate Relaxed(distance: map<Pos, Option<nat>>, distance': map<Pos, Option<nat>>, found: seq<Pos>, k: nat)
  {
    && distance'.Keys == distance.Keys
    && forall v {:trigger distance'[v]} :: v in distance' ==> distance'[v] == if v in found then Some(k) else distance[v]
  }

  /** Only visited cells have a finite distance. */
  ghost predicate FiniteVisited(distance: map<Pos, Option<nat>>, visited: set<Pos>)
  {
    forall v {:trigger distance[v]} :: v in distance && distance[v].Some? ==> v in visited
  }

  /** The relation the neighbour loop keeps after looking at the first `k`
      neighbours in `nbs`, for a popped entry `(cdist, current)`. */
  ghost predicate Scanned(nbs: seq<Pos>, current: Pos, cdist: nat, k: nat,
                          g: Grid, pq: multiset<Entry>, visited: set<Pos>, cameFrom: map<Pos, Pos>,
                          distance: map<Pos, Option<nat>>,
                          g': Grid, pq': multiset<Entry>, visited': set<Pos>, cameFrom': map<Pos, Pos>,
                          distance': map<Pos, Option<nat>>, discovered: seq<Pos>)
  {
    && k <= |nbs|
    && discovered == Unvisited(nbs, visited, k)
    && pq' == pq + Entries(discovered, cdist + 1)
    && visited' == visited + Elems(discovered)
    && LinkedOver(cameFrom, cameFrom', discovered, current)
    && OpenedOver(g, g', discovered)
    && Relaxed(distance, distance', discovered, cdist + 1)
  }

  /** The relaxation guard never fails: a neighbour that is not visited
      still has distance `float('inf')`, since a cell is marked visited in
      the same step its distance becomes finite. */
  lemma GuardPasses(nbs: seq<Pos>, visited: set<Pos>, k: nat, distance: map<Pos, Option<nat>>,
                    distance': map<Pos, Option<nat>>, discovered: seq<Pos>, cdist: nat)
    requires k < |nbs| && nbs[k] in distance && FiniteVisited(distance, visited)
    requires discovered == Unvisited(nbs, visited, k) && Relaxed(distance, distance', discovered, cdist + 1)
    requires nbs[k] !in visited + Elems(discovered)
    ensures nbs[k] in distance' && distance'[nbs[k]] == None && Below(cdist + 1, distance'[nbs[k]])
  {
    assert nbs[k] !in discovered;
  }

  /** Recording distance `k` for one more discovered cell keeps `Relaxed`. */
  lemma RelaxStep(distance: map<Pos, Option<nat>>, distance': map<Pos, Option<nat>>, found: seq<Pos>, nb: Pos, k: nat)
    requires Relaxed(distance, distance', found, k) && nb in distance'
    ensures Relaxed(distance, distance'[nb := Some(k)], found + [nb], k)
  {
    var e := distance'[nb := Some(k)];
    forall v | v in e
      ensures e[v] == if v in found + [nb] then Some(k) else distance[v]
    {
      assert v in found + [nb] <==> v in found || v == nb;
    }
  }

  /** Discovering the unvisited neighbour `nbs[k]` extends the scan by
      one: its entry is pushed, its distance recorded, its link made and its
      tag set to Open. */
  lemma DiscoverStep(nbs: seq<Pos>, current: Pos, cdist: nat, k: nat,
                     g: Grid, pq: multiset<Entry>, visited: set<Pos>, cameFrom: map<Pos, Pos>,
                     distance: map<Pos, Option<nat>>,
                     g': Grid, pq': multiset<Entry>, visited': set<Pos>, cameFrom': map<Pos, Pos>,
                     distance': map<Pos, Option<nat>>, discovered: seq<Pos>)
    requires k < |nbs| && Distinct(nbs) && Wf(g) && InBounds(g, nbs[k])
    requires Scanned(nbs, current, cdist, k, g, pq, visited, cameFrom, distance,
                     g', pq', visited', cameFrom', distance', discovered)
    requires nbs[k] !in visited' && nbs[k] in distance'
    ensures Scanned(nbs, current, cdist, k + 1, g, pq, visited, cameFrom, distance,
                    SetState(g', nbs[k], Open), pq' + multiset{Entry(cdist + 1, nbs[k])}, visited' + {nbs[k]},
                    cameFrom'[nbs[k] := current], distance'[nbs[k] := Some(cdist + 1)], discovered + [nbs[k]])
  {
    var nb := nbs[k];
    var d' := discovered + [nb];
    UnvisitedFresh(nbs, visited, k);
    assert Unvisited(nbs, visited, k + 1) == d';
    assert d'[..|d'| - 1] == discovered && Last(d') == nb;
    assert Entries(d', cdist + 1) == Entries(discovered, cdist + 1) + multiset{Entry(cdist + 1, nb)};
    RelaxStep(distance, distance', discovered, nb, cdist + 1);
    LinkStep(cameFrom, cameFrom', discovered, current, nb);
    OpenStep(g, g', discovered, nb);
    ElemsAppend(discovered, [nb]);
    assert Elems([nb]) == {nb};
  }

  /** One pass of the neighbour loop body, for the neighbour `nbs[k]`. */
  method Visit(nbs: seq<Pos>, current: Pos, cdist: nat, k: nat,
               ghost g: Grid, ghost pq: multiset<Entry>, ghost visited: set<Pos>, ghost cameFrom: map<Pos, Pos>,
               ghost distance: map<Pos, Option<nat>>,
               g': Grid, pq': multiset<Entry>, visited': set<Pos>, cameFrom': map<Pos, Pos>,
               distance': map<Pos, Option<nat>>, discovered: seq<Pos>)
    returns (g'': Grid, pq'': multiset<Entry>, visited'': set<Pos>, cameFrom'': map<Pos, Pos>,
             distance'': map<Pos, Option<nat>>, discovered': seq<Pos>)
    requires k < |nbs| && Distinct(nbs) && Wf(g) && InBounds(g, nbs[k])
    requires nbs[k] in distance && FiniteVisited(distance, visited)
    requires Scanned(nbs, current, cdist, k, g, pq, visited, cameFrom, distance,
                     g', pq', visited', cameFrom', distance', discovered)
    ensures Scanned(nbs, current, cdist, k + 1, g, pq, visited, cameFrom, distance,
                    g'', pq'', visited'', cameFrom'', distance'', discovered')
  {
    var nb := nbs[k];
    g'', pq'', visited'', cameFrom'', distance'', discovered' := g', pq', visited', cameFrom', distance', discovered;
    UnvisitedFresh(nbs, visited, k);
    assert nb in visited' <==> nb in visited;
    if nb !in visited' {
      var ndist := cdist + 1;
      GuardPasses(nbs, visited, k, distance, distance', discovered, cdist);
      if Below(ndist, distance'[nb]) {
        DiscoverStep(nbs, current, cdist, k, g, pq, visited, cameFrom, distance,
                     g', pq', visited', cameFrom', distance', discovered);
        distance'' := distance'[nb := Some(ndist)];
        pq'' := pq' + multiset{Entry(ndist, nb)};
        cameFrom'' := cameFrom'[nb := current];
        visited'' := visited' + {nb};
        g'' := SetState(g', nb, Open);
        discovered' := discovered + [nb];
      }
    } else {
      assert Unvisited(nbs, visited, k + 1) == discovered;
    }
  }

  /** `for neighbour in current.neighbours: if neighbour not in visited:
      ...`: the whole neighbour loop of one expansion. */
  method Scan(nbs: seq<Pos>, current: Pos, cdist: nat, g: Grid, pq: multiset<Entry>, visited: set<Pos>,
              cameFrom: map<Pos, Pos>, distance: map<Pos, Option<nat>>)
    returns (g': Grid, pq': multiset<Entry>, visited': set<Pos>, cameFrom': map<Pos, Pos>,
             distance': map<Pos, Option<nat>>, discovered: seq<Pos>)
    requires Distinct(nbs) && Wf(g) && forall i :: 0 <= i < |nbs| ==> InBounds(g, nbs[i]) && nbs[i] in distance
    requires FiniteVisited(distance, visited)
    ensures Scanned(nbs, current, cdist, |nbs|, g, pq, visited, cameFrom, distance,
                    g', pq', visited', cameFrom', distance', discovered)
  {
    g', pq', visited', cameFrom', distance', discovered := g, pq, visited, cameFrom, distance, [];
    var k := 0;
    while k < |nbs|
      invariant Scanned(nbs, current, cdist, k, g, pq, visited, cameFrom, distance,
                        g', pq', visited', cameFrom', distance', discovered)
    {
      g', pq', visited', cameFrom', distance', discovered :=
        Visit(nbs, current, cdist, k, g, pq, visited, cameFrom, distance, g', pq', visited', cameFrom', distance', discovered);
      k := k + 1;
    }
  }

  /** The neighbour loop over `current.neighbours`, the list
      `update_neighbours` computed on `grid`. */
  method ScanNeighbours(grid: Grid, g: Grid, current: Pos, cdist: nat, pq: multiset<Entry>, visited: set<Pos>,
                        cameFrom: map<Pos, Pos>, distance: map<Pos, Option<nat>>)
    returns (g': Grid, pq': multiset<Entry>, visited': set<Pos>, cameFrom': map<Pos, Pos>,
             distance': map<Pos, Option<nat>>, found: seq<Pos>)
    requires Wf(grid) && Wf(g) && |g| == |grid| && InBounds(grid, current)
    requires (forall v :: InBounds(grid, v) ==> v in distance) && FiniteVisited(distance, visited)
    ensures Discovers(grid, current, visited, found)
    ensures pq' == pq + Entries(found, cdist + 1) && visited' == visited + Elems(found)
    ensures LinkedOver(cameFrom, cameFrom', found, current) && OpenedOver(g, g', found)
    ensures Relaxed(distance, distance', found, cdist + 1)
  {
    var nbs := Neighbours(grid, current);
    NeighboursDistinct(grid, current);
    g', pq', visited', cameFrom', distance', found := Scan(nbs, current, cdist, g, pq, visited, cameFrom, distance);
    UnvisitedDiscovers(grid, current, visited);
  }

  /** The queue holds exactly one entry `(d[v], v)` for every discovered
      cell `v` not yet expanded, and nothing else. */
  ghost predicate Queued(pq: multiset<Entry>, done: set<Pos>, d: map<Pos, nat>)
  {
    forall e :: pq[e] == if e.node in d && e.node !in done && e.priority == d[e.node] then 1 else 0
  }

  /** `distance` has a key for every cell of the grid, holding the recorded
      distance of a discovered cell and `float('inf')` elsewhere. */
  ghost predicate Recorded(grid: Grid, distance: map<Pos, Option<nat>>, d: map<Pos, nat>)
  {
    && (forall v :: v in distance <==> InBounds(grid, v))
    && forall v {:trigger distance[v]} :: v in distance ==> distance[v] == if v in d then Some(d[v]) else None
  }

  /** `expanded` lists the expanded cells in expansion order and `pops` the
      priorities they were popped with; the pops never decrease and no
      queued cell lies below the last one. */
  ghost predicate Popped(expanded: seq<Pos>, pops: seq<nat>, done: set<Pos>, d: map<Pos, nat>)
  {
    && |pops| == |expanded| && done == Elems(expanded) && Distinct(expanded)
    && (forall i :: 0 <= i < |expanded| ==> expanded[i] in d && pops[i] == d[expanded[i]])
    && NonDecreasing(pops)
    && (|pops| > 0 ==> forall f :: f in d && f !in done ==> Last(pops) <= d[f])
  }

  /** The state of `dijkstra` at the top of its loop. `visited` is still
      empty before the first pop, since the program adds `start` to it only
      after popping. */
  ghost predicate DijkstraInv(grid: Grid, g: Grid, start: Pos, end: Pos, cameFrom: map<Pos, Pos>, order: seq<Pos>,
                              done: set<Pos>, d: map<Pos, nat>, pq: multiset<Entry>, visited: set<Pos>,
                              distance: map<Pos, Option<nat>>, expanded: seq<Pos>, pops: seq<nat>, draws: nat)
  {
    && SearchInv(grid, g, start, end, cameFrom, order, done, d)
    && Queued(pq, done, d)
    && Recorded(grid, distance, d)
    && Popped(expanded, pops, done, d)
    && (expanded == [] ==> order == [start] && visited == {})
    && (expanded != [] ==> visited == Elems(order))
    && draws == |expanded|
  }

  /** What a pop hands out: a discovered cell not yet expanded, popped with
      its recorded distance (`cdist == distance[current]`), no further from
      the start than any other such cell, and no closer than the previous
      pop. */
  lemma PopFacts(grid: Grid, g: Grid, start: Pos, end: Pos, cameFrom: map<Pos, Pos>, order: seq<Pos>,
                 done: set<Pos>, d: map<Pos, nat>, pq: multiset<Entry>, visited: set<Pos>,
                 distance: map<Pos, Option<nat>>, expanded: seq<Pos>, pops: seq<nat>, draws: nat,
                 cdist: nat, current: Pos)
    requires DijkstraInv(grid, g, start, end, cameFrom, order, done, d, pq, visited, distance, expanded, pops, draws)
    requires Entry(cdist, current) in pq && forall e :: e in pq ==> cdist <= e.priority
    ensures current in Elems(order) - done && cdist == d[current]
    ensures current in distance && distance[current] == Some(cdist)
    ensures forall f :: f in Elems(order) - done ==> d[current] <= d[f]
    ensures |pops| > 0 ==> Last(pops) <= cdist
    ensures |expanded| < |grid| * |grid|
    ensures FiniteVisited(distance, visited + {start}) && forall v :: InBounds(grid, v) ==> v in distance
  {
    assert pq[Entry(cdist, current)] > 0;
    forall f | f in Elems(order) - done
      ensures d[current] <= d[f]
    {
      assert pq[Entry(d[f], f)] == 1;
    }
    SeenAll(start, order, expanded == [], visited);
    DistinctCard(expanded);
    DistinctCard(order);
    SubsetCard(done + {current}, Elems(order));
    ShapeBound(grid, g, start, order);
  }

  /** Popping `(cdist, current)` and enqueuing `(cdist + 1, v)` for the
      cells `v` of `found` keeps one entry per queued cell. */
  lemma QueuedStep(pq: multiset<Entry>, rest: multiset<Entry>, pq': multiset<Entry>, done: set<Pos>,
                   d: map<Pos, nat>, cdist: nat, current: Pos, found: seq<Pos>)
    requires Queued(pq, done, d) && Entry(cdist, current) in pq && done <= d.Keys
    requires rest == pq - multiset{Entry(cdist, current)} && pq' == rest + Entries(found, cdist + 1)
    requires Distinct(found) && Elems(found) !! d.Keys
    ensures Queued(pq', done + {current}, Extend(d, Elems(found), cdist + 1))
  {
    var d' := Extend(d, Elems(found), cdist + 1);
    var top := Entry(cdist, current);
    EntriesCount(found, cdist + 1);
    assert pq[top] == 1;
    assert current in d;
    forall e
      ensures pq'[e] == if e.node in d' && e.node !in done + {current} && e.priority == d'[e.node] then 1 else 0
    {
      assert pq'[e] == rest[e] + Entries(found, cdist + 1)[e];
      if e.node in Elems(found) {
        assert e.node !in d && e.node !in done && e != top;
        assert pq[e] == 0 && rest[e] == 0;
      } else {
        assert Entries(found, cdist + 1)[e] == 0;
        if e == top {
          assert rest[e] == 0;
        } else {
          assert rest[e] == pq[e];
        }
      }
    }
  }

  /** The distance table after the neighbour loop matches the extended
      recorded distances. */
  lemma RecordedStep(grid: Grid, distance: map<Pos, Option<nat>>, distance': map<Pos, Option<nat>>,
                     d: map<Pos, nat>, found: seq<Pos>, k: nat)
    requires Recorded(grid, distance, d) && Relaxed(distance, distance', found, k)
    ensures Recorded(grid, distance', Extend(d, Elems(found), k))
  {
    var d' := Extend(d, Elems(found), k);
    forall v | v in distance'
      ensures distance'[v] == if v in d' then Some(d'[v]) else None
    {
      assert v in found <==> v in Elems(found);
    }
  }

  /** Expanding `current`, popped at its recorded distance `cdist` no
      closer than the previous pop, keeps the pops sorted. */
  lemma PoppedStep(expanded: seq<Pos>, pops: seq<nat>, done: set<Pos>, d: map<Pos, nat>,
                   cdist: nat, current: Pos, found: seq<Pos>)
    requires Popped(expanded, pops, done, d)
    requires current in d && current !in done && cdist == d[current]
    requires forall f :: f in d && f !in done ==> cdist <= d[f]
    requires |pops| > 0 ==> Last(pops) <= cdist
    requires Elems(found) !! d.Keys
    ensures Popped(expanded + [current], pops + [cdist], done + {current}, Extend(d, Elems(found), cdist + 1))
  {
    var d' := Extend(d, Elems(found), cdist + 1);
    var e', p' := expanded + [current], pops + [cdist];
    ElemsAppend(expanded, [current]);
    assert Elems([current]) == {current};
    forall i | 0 <= i < |e'|
      ensures e'[i] in d' && p'[i] == d'[e'[i]]
    {
      if i < |expanded| {
        assert e'[i] == expanded[i] && expanded[i] in Elems(expanded);
      }
    }
    forall i, j | 0 <= i < j < |p'|
      ensures p'[i] <= p'[j]
    {
      if j == |pops| && i < j {
        assert pops[i] <= Last(pops);
      }
    }
    forall i, j | 0 <= i < j < |e'|
      ensures e'[i] != e'[j]
    {
      if j == |expanded| {
        assert e'[i] == expanded[i] && expanded[i] in Elems(expanded);
      }
    }
    forall f | f in d' && f !in done + {current}
      ensures cdist <= d'[f]
    {
      if f in Elems(found) {
      } else {
        assert f in d;
      }
    }
  }

  /** Expanding the popped entry `(cdist, current)` when `current` is not
      `end` keeps `DijkstraInv`: `found` lists the neighbours the scan
      discovered, `g1` holds the tags after the scan and the primed
      parameters hold the state after the pass. */
  lemma ExpandKeeps(grid: Grid, g: Grid, g1: Grid, g': Grid, start: Pos, end: Pos,
                    cameFrom: map<Pos, Pos>, cameFrom': map<Pos, Pos>, order: seq<Pos>, order': seq<Pos>,
                    done: set<Pos>, done': set<Pos>, d: map<Pos, nat>, cdist: nat, current: Pos,
                    pq: multiset<Entry>, rest: multiset<Entry>, pq': multiset<Entry>,
                    visited: set<Pos>, visited': set<Pos>,
                    distance: map<Pos, Option<nat>>, distance': map<Pos, Option<nat>>,
                    expanded: seq<Pos>, expanded': seq<Pos>, pops: seq<nat>, pops': seq<nat>,
                    draws: nat, draws': nat, found: seq<Pos>)
    requires DijkstraInv(grid, g, start, end, cameFrom, order, done, d, pq, visited, distance, expanded, pops, draws)
    requires Entry(cdist, current) in pq && (forall e :: e in pq ==> cdist <= e.priority) && current != end
    requires rest == pq - multiset{Entry(cdist, current)}
    requires Discovers(grid, current, visited + {start}, found)
    requires OpenedOver(g, g1, found) && LinkedOver(cameFrom, cameFrom', found, current)
    requires Relaxed(distance, distance', found, cdist + 1)
    requires pq' == rest + Entries(found, cdist + 1) && visited' == visited + {start} + Elems(found)
    requires g' == if current != start then SetState(g1, current, Closed) else g1
    requires order' == order + found && done' == done + {current}
    requires expanded' == expanded + [current] && pops' == pops + [cdist] && draws' == draws + 1
    ensures DijkstraInv(grid, g', start, end, cameFrom', order', done', Extend(d, Elems(found), cdist + 1),
                        pq', visited', distance', expanded', pops', draws')
  {
    PopFacts(grid, g, start, end, cameFrom, order, done, d, pq, visited, distance, expanded, pops, draws, cdist, current);
    SeenAll(start, order, expanded == [], visited);
    Step(grid, g, g1, g', start, end, cameFrom, cameFrom', order, order', done, done', d, cdist, current, found);
    assert Elems(found) !! d.Keys by {
      forall v | v in Elems(found)
        ensures v !in d
      {
        var k :| 0 <= k < |found| && found[k] == v;
      }
    }
    QueuedStep(pq, rest, pq', done, d, cdist, current, found);
    RecordedStep(grid, distance, distance', d, found, cdist + 1);
    PoppedStep(expanded, pops, done, d, cdist, current, found);
    ElemsAppend(order, found);
  }

  /** One pass of the `dijkstra` loop after popping `(cdist, current)`
      when `current` is not `end`: scan the neighbours, call `draw` and
      close the cell unless it is the start. */
  method Expand(grid: Grid, g: Grid, start: Pos, end: Pos, cameFrom: map<Pos, Pos>, order: seq<Pos>,
                ghost done: set<Pos>, ghost d: map<Pos, nat>, cdist: nat, current: Pos,
                ghost pq: multiset<Entry>, rest: multiset<Entry>, visited: set<Pos>,
                distance: map<Pos, Option<nat>>, expanded: seq<Pos>, pops: seq<nat>, draws: nat)
    returns (g': Grid, cameFrom': map<Pos, Pos>, order': seq<Pos>, ghost done': set<Pos>, ghost d': map<Pos, nat>,
             pq': multiset<Entry>, visited': set<Pos>, distance': map<Pos, Option<nat>>,
             expanded': seq<Pos>, pops': seq<nat>, draws': nat)
    requires DijkstraInv(grid, g, start, end, cameFrom, order, done, d, pq, visited, distance, expanded, pops, draws)
    requires Entry(cdist, current) in pq && (forall e :: e in pq ==> cdist <= e.priority) && current != end
    requires rest == pq - multiset{Entry(cdist, current)}
    ensures DijkstraInv(grid, g', start, end, cameFrom', order', done', d', pq', visited', distance', expanded', pops', draws')
    ensures |expanded'| == |expanded| + 1 && |expanded'| <= |grid| * |grid|
  {
    PopFacts(grid, g, start, end, cameFrom, order, done, d, pq, visited, distance, expanded, pops, draws, cdist, current);
    var g1, found;
    g1, pq', visited', cameFrom', distance', found :=
      ScanNeighbours(grid, g, current, cdist, rest, visited + {start}, cameFrom, distance);
    draws' := draws + 1;
    g' := if current != start then SetState(g1, current, Closed) else g1;
    order' := order + found;
    d' := Extend(d, Elems(found), cdist + 1);
    done' := done + {current};
    expanded' := expanded + [current];
    pops' := pops + [cdist];
    ExpandKeeps(grid, g, g1, g', start, end, cameFrom, cameFrom', order, order', done, done', d, cdist, current,
                pq, rest, pq', visited, visited', distance, distance', expanded, expanded', pops, pops',
                draws, draws', found);
  }

  /** `{node: float('inf') for row in grid for node in row}` followed by
      `distance[start] = 0`. */
  function InitialDistance(grid: Grid, start: Pos): map<Pos, Option<nat>>
  {
    (map v | v in Cells(|grid|, |grid|) :: None)[start := Some(0)]
  }

  /** The state before the first pop: the queue holds `(0, start)` alone,
      nothing is visited, expanded or linked, the tags are those of `grid`. */
  lemma DijkstraInit(grid: Grid, start: Pos, end: Pos)
    requires Wf(grid) && InBounds(grid, start)
    ensures DijkstraInv(grid, grid, start, end, map[], [start], {}, map[start := 0], multiset{Entry(0, start)}, {},
                        InitialDistance(grid, start), [], [], 0)
  {
    var d := map[start := 0];
    assert Elems([start]) == {start};
    assert Elems<Pos>([]) == {};
    CellsIn(|grid|, |grid|);
    forall w | IsWalk(grid, w) && w[0] == start && Last(w) in d
      ensures |w| - 1 >= d[Last(w)]
    {
    }
  }

  /** Every pop so far is the shortest distance of the cell it expanded
      (`cdist == distance[current]` and recorded distances are settled). */
  lemma PopsSettled(grid: Grid, g: Grid, start: Pos, end: Pos, cameFrom: map<Pos, Pos>, order: seq<Pos>,
                    done: set<Pos>, d: map<Pos, nat>, pq: multiset<Entry>, visited: set<Pos>,
                    distance: map<Pos, Option<nat>>, expanded: seq<Pos>, pops: seq<nat>, draws: nat)
    requires DijkstraInv(grid, g, start, end, cameFrom, order, done, d, pq, visited, distance, expanded, pops, draws)
    ensures forall i :: 0 <= i < |expanded| ==> ShortestIs(grid, start, expanded[i], pops[i])
  {
    forall i | 0 <= i < |expanded|
      ensures ShortestIs(grid, start, expanded[i], pops[i])
    {
      Settled(grid, g, start, end, cameFrom, order, done, d, expanded[i]);
    }
  }

  /** The pops with the pop of `end` appended: still non-decreasing, and
      the earlier pops keep their meaning. */
  lemma LastPop(grid: Grid, start: Pos, expanded: seq<Pos>, pops: seq<nat>, pops': seq<nat>, cdist: nat)
    requires Wf(grid) && |pops| == |expanded| && NonDecreasing(pops) && (|pops| > 0 ==> Last(pops) <= cdist)
    requires forall i :: 0 <= i < |expanded| ==> ShortestIs(grid, start, expanded[i], pops[i])
    requires pops' == pops + [cdist]
    ensures NonDecreasing(pops') && |pops'| == |expanded| + 1 && Last(pops') == cdist
    ensures forall i :: 0 <= i < |expanded| ==> ShortestIs(grid, start, expanded[i], pops'[i])
  {
    forall i | 0 <= i < |expanded|
      ensures ShortestIs(grid, start, expanded[i], pops'[i])
    {
      assert pops'[i] == pops[i];
    }
    forall i, j | 0 <= i < j < |pops'|
      ensures pops'[i] <= pops'[j]
    {
      if j == |pops| && i < j {
        assert pops[i] <= Last(pops);
      }
    }
  }

  /** Every finite entry of `distance` is the shortest distance from the
      start, exactly the discovered cells have one, and each predecessor
      link adds one to it. */
  lemma DistanceSettled(grid: Grid, g: Grid, start: Pos, end: Pos, cameFrom: map<Pos, Pos>, order: seq<Pos>,
                        done: set<Pos>, d: map<Pos, nat>, pq: multiset<Entry>, visited: set<Pos>,
                        distance: map<Pos, Option<nat>>, expanded: seq<Pos>, pops: seq<nat>, draws: nat)
    requires DijkstraInv(grid, g, start, end, cameFrom, order, done, d, pq, visited, distance, expanded, pops, draws)
    ensures forall v :: v in distance ==> (distance[v].Some? <==> v in Elems(order))
    ensures forall v :: v in distance && distance[v].Some? ==> ShortestIs(grid, start, v, distance[v].value)
  {
    forall v | v in distance && distance[v].Some?
      ensures ShortestIs(grid, start, v, distance[v].value)
    {
      Settled(grid, g, start, end, cameFrom, order, done, d, v);
    }
  }

  /** Each predecessor link of the final table adds one to `distance`
      (`distance[n] == distance[came_from[n]] + 1`). */
  lemma DistanceLinks(grid: Grid, start: Pos, cameFrom: map<Pos, Pos>, order: seq<Pos>, d: map<Pos, nat>,
                      distance: map<Pos, Option<nat>>)
    requires Wf(grid) && Links(grid, start, cameFrom, order, d) && Recorded(grid, distance, d)
    ensures forall v {:trigger cameFrom[v]} :: v in cameFrom ==>
              v in distance && cameFrom[v] in distance && distance[cameFrom[v]].Some? &&
              distance[v] == Some(distance[cameFrom[v]].value + 1)
  {
    forall v | v in cameFrom
      ensures v in distance && cameFrom[v] in distance
    {
      assert InBounds(grid, v) && InBounds(grid, cameFrom[v]) by {
        assert Edge(grid, cameFrom[v], v);
      }
    }
  }

  /** The search's results when the popped cell is `end`: the trail is
      reconstructed and tagged, the last pop is `end` at the length of the
      trail. */
  method Found(grid: Grid, g: Grid, start: Pos, end: Pos, cameFrom: map<Pos, Pos>, order: seq<Pos>,
               ghost done: set<Pos>, ghost d: map<Pos, nat>, ghost pq: multiset<Entry>, visited: set<Pos>,
               distance: map<Pos, Option<nat>>, expanded: seq<Pos>, pops: seq<nat>, draws: nat,
               cdist: nat, current: Pos)
    returns (g': Grid, trail: seq<Pos>, draws': nat, pops': seq<nat>)
    requires DijkstraInv(grid, g, start, end, cameFrom, order, done, d, pq, visited, distance, expanded, pops, draws)
    requires Entry(cdist, current) in pq && (forall e :: e in pq ==> cdist <= e.priority) && current == end
    ensures Reachable(grid, start, end)
    ensures ShortestIs(grid, start, end, |trail|) && (trail == [] <==> start == end)
    ensures trail != [] ==> IsChain(cameFrom, end, trail) && Last(trail) == start
    ensures Distinct(trail) && end !in trail
    ensures |order| > 0 && order[0] == start && Distinct(order) && |order| <= |grid| * |grid|
    ensures start !in cameFrom && cameFrom.Keys == Elems(order) - {start}
    ensures draws' == |expanded| + |trail|
    ensures NonDecreasing(pops') && |pops'| == |expanded| + 1
    ensures forall i :: 0 <= i < |expanded| ==> ShortestIs(grid, start, expanded[i], pops'[i])
    ensures Last(pops') == |trail|
    ensures Wf(g') && |g'| == |grid|
    ensures forall p :: InBounds(grid, p) ==>
              StateAt(g', p) == FinalTag(grid, start, end, true, order, Elems(expanded), trail, p)
    ensures OnlySearchTags(grid, g', start, end)
  {
    PopFacts(grid, g, start, end, cameFrom, order, done, d, pq, visited, distance, expanded, pops, draws, cdist, current);
    ShapeBound(grid, g, start, order);
    var k;
    g', trail, k := Finish(grid, g, start, end, cameFrom, order, done, d);
    draws' := draws + k;
    FinalRetag(grid, g', start, end, true, cameFrom, order, done, d, trail);
    ghost var w :| WalkFromTo(grid, w, start, end) && |w| - 1 == |trail|;
    Settled(grid, g, start, end, cameFrom, order, done, d, end);
    ShortestUnique(grid, start, end, cdist, |trail|);
    PopsSettled(grid, g, start, end, cameFrom, order, done, d, pq, visited, distance, expanded, pops, draws);
    pops' := pops + [cdist];
    LastPop(grid, start, expanded, pops, pops', cdist);
  }

  /** The search's results when the queue runs empty: `end` is
      unreachable, every discovered cell was expanded, and the start and
      end keep their tags. */
  lemma Drained(grid: Grid, g: Grid, start: Pos, end: Pos, cameFrom: map<Pos, Pos>, order: seq<Pos>,
                done: set<Pos>, d: map<Pos, nat>, pq: multiset<Entry>, visited: set<Pos>,
                distance: map<Pos, Option<nat>>, expanded: seq<Pos>, pops: seq<nat>, draws: nat)
    requires DijkstraInv(grid, g, start, end, cameFrom, order, done, d, pq, visited, distance, expanded, pops, draws)
    requires |pq| == 0
    ensures !Reachable(grid, start, end) && Elems(expanded) == Elems(order)
    ensures |order| > 0 && order[0] == start && Distinct(order) && |order| <= |grid| * |grid|
    ensures start !in cameFrom && cameFrom.Keys == Elems(order) - {start}
    ensures draws == |expanded| && NonDecreasing(pops) && |pops| == |expanded|
    ensures forall i :: 0 <= i < |expanded| ==> ShortestIs(grid, start, expanded[i], pops[i])
    ensures Wf(g) && |g| == |grid|
    ensures forall p :: InBounds(grid, p) ==>
              StateAt(g, p) == FinalTag(grid, start, end, false, order, Elems(expanded), [], p)
    ensures OnlySearchTags(grid, g, start, end)
    ensures StateAt(g, start) == StateAt(grid, start)
    ensures InBounds(grid, end) ==> StateAt(g, end) == StateAt(grid, end)
  {
    forall f | f in d
      ensures f in done
    {
      assert pq[Entry(d[f], f)] == 0;
    }
    Exhausted(grid, g, start, end, cameFrom, order, done, d);
    FinalRetag(grid, g, start, end, false, cameFrom, order, done, d, []);
    PopsSettled(grid, g, start, end, cameFrom, order, done, d, pq, visited, distance, expanded, pops, draws);
    ShapeBound(grid, g, start, order);
  }

  /** `dijkstra(draw, grid, start, end)`, where `grid` holds the tags (and
      so the neighbour lists) when the search starts. `result` is
      `Some(true)` for the returned `True` and `None` when the function
      falls off its end; `g` holds the tags afterwards, `distance` and
      `cameFrom` the final tables, `order` every cell ever put in the
      queue, `expanded` the expanded cells in order, `pops` the priorities
      of every `queue.get()` and `draws` the number of `draw` calls. */
  method Dijkstra(grid: Grid, start: Pos, end: Pos)
    returns (result: Option<bool>, g: Grid, cameFrom: map<Pos, Pos>, distance: map<Pos, Option<nat>>,
             order: seq<Pos>, trail: seq<Pos>, draws: nat, expanded: seq<Pos>, pops: seq<nat>)
    requires Wf(grid) && InBounds(grid, start)
    ensures result == None || result == Some(true)
    ensures result.Some? <==> Reachable(grid, start, end)
    ensures result.Some? ==> ShortestIs(grid, start, end, |trail|) && (trail == [] <==> start == end)
    ensures result.Some? && trail != [] ==> IsChain(cameFrom, end, trail) && Last(trail) == start
    ensures Distinct(trail) && end !in trail
    ensures result.None? ==> trail == [] && Elems(expanded) == Elems(order)
    ensures |order| > 0 && order[0] == start && Distinct(order) && |order| <= |grid| * |grid|
    ensures start !in cameFrom && cameFrom.Keys == Elems(order) - {start}
    ensures draws == |expanded| + |trail|
    ensures NonDecreasing(pops) && |pops| == |expanded| + (if result.Some? then 1 else 0)
    ensures forall i :: 0 <= i < |expanded| ==> ShortestIs(grid, start, expanded[i], pops[i])
    ensures result.Some? ==> Last(pops) == |trail|
    ensures forall v :: v in distance <==> InBounds(grid, v)
    ensures forall v :: v in distance ==> (distance[v].Some? <==> v in Elems(order))
    ensures forall v :: v in distance && distance[v].Some? ==> ShortestIs(grid, start, v, distance[v].value)
    ensures forall v {:trigger cameFrom[v]} :: v in cameFrom ==>
              v in distance && cameFrom[v] in distance && distance[cameFrom[v]].Some? &&
              distance[v] == Some(distance[cameFrom[v]].value + 1)
    ensures forall v {:trigger cameFrom[v]} :: v in cameFrom ==> Edge(grid, cameFrom[v], v)
    ensures result.Some? && trail != [] ==> WalkFromTo(grid, Forwards(trail, end), start, end)
    ensures Elems(expanded) <= Elems(order) && NeighboursWithin(grid, Elems(expanded), Elems(order))
    ensures result.None? ==> forall v :: InBounds(grid, v) ==> (v in Elems(order) <==> Reachable(grid, start, v))
    ensures Wf(g) && |g| == |grid|
    ensures forall p :: InBounds(grid, p) ==>
              StateAt(g, p) == FinalTag(grid, start, end, result.Some?, order, Elems(expanded), trail, p)
    ensures OnlySearchTags(grid, g, start, end)
    ensures result.None? ==> StateAt(g, start) == StateAt(grid, start)
    ensures result.None? && InBounds(grid, end) ==> StateAt(g, end) == StateAt(grid, end)
  {
    DijkstraInit(grid, start, end);
    var pq, visited := multiset{Entry(0, start)}, {};
    g, cameFrom, distance, order, trail, draws, expanded, pops := grid, map[], InitialDistance(grid, start), [start], [], 0, [], [];
    ghost var done: set<Pos>, d: map<Pos, nat> := {}, map[start := 0];
    while |pq| > 0
      invariant DijkstraInv(grid, g, start, end, cameFrom, order, done, d, pq, visited, distance, expanded, pops, draws)
      invariant |expanded| <= |grid| * |grid|
      decreases |grid| * |grid| - |expanded|
    {
      var cdist, current, rest := Pop(pq);
      if current == end {
        DistanceSettled(grid, g, start, end, cameFrom, order, done, d, pq, visited, distance, expanded, pops, draws);
        DistanceLinks(grid, start, cameFrom, order, d, distance);
        SearchFacts(grid, g, start, end, cameFrom, order, done, d);
        result := Some(true);
        g, trail, draws, pops := Found(grid, g, start, end, cameFrom, order, done, d, pq, visited, distance, expanded,
                                       pops, draws, cdist, current);
        if trail != [] {
          ChainWalk(grid, cameFrom, end, trail);
        }
        return;
      }
      g, cameFrom, order, done, d, pq, visited, distance, expanded, pops, draws :=
        Expand(grid, g, start, end, cameFrom, order, done, d, cdist, current, pq, rest, visited, distance, expanded, pops, draws);
    }
    result := None;
    Drained(grid, g, start, end, cameFrom, order, done, d, pq, visited, distance, expanded, pops, draws);
    DistanceSettled(grid, g, start, end, cameFrom, order, done, d, pq, visited, distance, expanded, pops, draws);
    DistanceLinks(grid, start, cameFrom, order, d, distance);
    SearchFacts(grid, g, start, end, cameFrom, order, done, d);
  }
}

=== FILE: explore.dfy ===
/** The invariant both searches keep while they expand cells, and what it
    gives at the two ways a search ends. The searches differ only in the
    order they expand cells: `bfs` takes the oldest discovered cell,
    `dijkstra` a cell of least recorded distance. Either way the expanded
    cell is one of least distance on the frontier, and that is all the
    invariant needs. */
module Explore {
  import opened Grid
  import opened Walks
  import opened Search
  import opened Reconstruct

  /** The discovered cells: `order` lists them in discovery order, starting
      with `start`, without repetitions; `g` holds the tags of the same
      grid. */
  ghost predicate Shape(grid: Grid, g: Grid, start: Pos, order: seq<Pos>)
  {
    && Wf(grid) && Wf(g) && |g| == |grid|
    && |order| > 0 && order[0] == start && Distinct(order)
    && (forall k :: 0 <= k < |order| ==> InBounds(grid, order[k]))
  }

  /** Every discovered cell other than `start` has a predecessor, the
      predecessor links follow the neighbour lists, and `d` records a
      distance for every discovered cell that grows by one along each link. */
  ghost predicate Links(grid: Grid, start: Pos, cameFrom: map<Pos, Pos>, order: seq<Pos>, d: map<Pos, nat>)
    requires Wf(grid)
  {
    && start !in cameFrom && cameFrom.Keys == Elems(order) - {start}
    && (forall v {:trigger cameFrom[v]} :: v in cameFrom ==> Edge(grid, cameFrom[v], v))
    && d.Keys == Elems(order) && start in d && d[start] == 0
    && (forall v {:trigger cameFrom[v]} :: v in cameFrom ==> v in d && cameFrom[v] in d && d[v] == d[cameFrom[v]] + 1)
  }

  /** The neighbours of every expanded cell are discovered, and no walk
      from `start` is shorter than a recorded distance. */
  ghost predicate Explored(grid: Grid, start: Pos, d: map<Pos, nat>, done: set<Pos>, order: seq<Pos>)
    requires Wf(grid)
  {
    NeighboursWithin(grid, done, Elems(order)) && LowerBounds(grid, start, d)
  }

  ghost predicate Tagged(grid: Grid, g: Grid, start: Pos, order: seq<Pos>, done: set<Pos>)
    requires Wf(grid) && Wf(g) && |g| == |grid|
  {
    forall p :: InBounds(grid, p) ==> StateAt(g, p) == Tag(grid, start, order, done, p)
  }

  /** The state of a search from `start` towards `end` that has discovered
      the cells of `order` and expanded those of `done`. */
  ghost predicate SearchInv(grid: Grid, g: Grid, start: Pos, end: Pos, cameFrom: map<Pos, Pos>,
                            order: seq<Pos>, done: set<Pos>, d: map<Pos, nat>)
  {
    && Shape(grid, g, start, order)
    && Links(grid, start, cameFrom, order, d)
    && done <= Elems(order)
    && Explored(grid, start, d, done, order)
    && end !in done
    && Tagged(grid, g, start, order, done)
  }

  /** The cells of `found` are exactly the neighbours of `c` outside `seen`,
      each listed once. */
  ghost predicate Discovers(grid: Grid, c: Pos, seen: set<Pos>, found: seq<Pos>)
    requires Wf(grid)
  {
    && Distinct(found)
    && (forall k :: 0 <= k < |found| ==> Edge(grid, c, found[k]) && found[k] !in seen)
    && (forall v :: Edge(grid, c, v) ==> v in seen || v in found)
  }

  /** Each cell is discovered at most once, so at most rows * rows cells
      are. */
  lemma ShapeBound(grid: Grid, g: Grid, start: Pos, order: seq<Pos>)
    requires Shape(grid, g, start, order)
    ensures |order| <= |grid| * |grid|
  {
    DistinctCellsBound(order, |grid|);
  }

  /** The unvisited entries of a neighbour list are the neighbours outside
      the visited set. */
  lemma UnvisitedDiscovers(grid: Grid, c: Pos, visited: set<Pos>)
    requires Wf(grid) && InBounds(grid, c)
    ensures var nbs := Neighbours(grid, c);
            Discovers(grid, c, visited, Unvisited(nbs, visited, |nbs|))
  {
    var nbs := Neighbours(grid, c);
    NeighboursDistinct(grid, c);
    UnvisitedIn(nbs, visited, |nbs|);
    UnvisitedDistinct(nbs, visited, |nbs|);
    assert nbs[..|nbs|] == nbs;
  }

  lemma DistinctAppend(s: seq<Pos>, t: seq<Pos>)
    requires Distinct(s) && Distinct(t) && Elems(s) !! Elems(t)
    ensures Distinct(s + t) && Elems(s + t) == Elems(s) + Elems(t)
  {
    ElemsAppend(s, t);
    var u := s + t;
    forall i, j | 0 <= i < j < |u|
      ensures u[i] != u[j]
    {
      if i < |s| <= j {
        assert u[i] in Elems(s) && u[j] == t[j - |s|] && u[j] in Elems(t);
      }
    }
  }

  /** Expanding `c` keeps the discovered cells in bounds and distinct. */
  lemma StepShape(grid: Grid, g: Grid, g': Grid, start: Pos, order: seq<Pos>, c: Pos, found: seq<Pos>)
    requires Shape(grid, g, start, order) && c in Elems(order)
    requires Discovers(grid, c, Elems(order), found)
    requires Wf(g') && |g'| == |grid|
    ensures Shape(grid, g', start, order + found)
  {
    assert Elems(order) !! Elems(found) by {
      forall v | v in Elems(found) ensures v !in Elems(order) {
        var k :| 0 <= k < |found| && found[k] == v;
      }
    }
    DistinctAppend(order, found);
    var o := order + found;
    forall k | 0 <= k < |o|
      ensures InBounds(grid, o[k])
    {
      if k >= |order| {
        assert o[k] == found[k - |order|];
        assert Edge(grid, c, found[k - |order|]);
      }
    }
  }

  /** Expanding `c` links each discovered cell to `c` one step further from
      the start than `c`. */
  lemma StepLinks(grid: Grid, start: Pos, cameFrom: map<Pos, Pos>, cameFrom': map<Pos, Pos>,
                  order: seq<Pos>, d: map<Pos, nat>, c: Pos, found: seq<Pos>)
    requires Wf(grid) && |order| > 0 && order[0] == start
    requires Links(grid, start, cameFrom, order, d) && c in Elems(order)
    requires Discovers(grid, c, Elems(order), found)
    requires LinkedOver(cameFrom, cameFrom', found, c)
    ensures Links(grid, start, cameFrom', order + found, Extend(d, Elems(found), d[c] + 1))
  {
    var d' := Extend(d, Elems(found), d[c] + 1);
    ElemsAppend(order, found);
    assert start in Elems(order);
    forall v | v in Elems(found)
      ensures v !in Elems(order) && Edge(grid, c, v)
    {
      var k :| 0 <= k < |found| && found[k] == v;
    }
    forall v | v in cameFrom'
      ensures Edge(grid, cameFrom'[v], v)
      ensures v in d' && cameFrom'[v] in d' && d'[v] == d'[cameFrom'[v]] + 1
    {
      if v in found {
        assert v in Elems(found);
      }
    }
  }

  /** Expanding a frontier cell `c` of least recorded distance keeps every
      expanded cell's neighbours discovered and every recorded distance a
      lower bound. */
  lemma StepExplored(grid: Grid, start: Pos, order: seq<Pos>, done: set<Pos>, d: map<Pos, nat>,
                     c: Pos, found: seq<Pos>)
    requires Wf(grid) && |order| > 0 && order[0] == start
    requires d.Keys == Elems(order) && done <= Elems(order)
    requires Explored(grid, start, d, done, order)
    requires c in Elems(order) - done
    requires forall f :: f in Elems(order) - done ==> d[c] <= d[f]
    requires Discovers(grid, c, Elems(order), found)
    ensures Explored(grid, start, Extend(d, Elems(found), d[c] + 1), done + {c}, order + found)
  {
    var seen := Elems(order);
    ElemsAppend(order, found);
    forall v | v in Elems(found)
      ensures v !in seen
    {
      var k :| 0 <= k < |found| && found[k] == v;
    }
    assert start in seen;
    assert seen - (seen - done) == done;
    ExtendLowerBounds(grid, start, d, seen, seen - done, d[c], Elems(found));
  }

  /** The tags after expanding `c`: the discovered cells Open (`g1`), then
      `c` Closed unless it is the start. */
  lemma StepTagged(grid: Grid, g: Grid, g1: Grid, start: Pos, order: seq<Pos>, done: set<Pos>,
                   c: Pos, found: seq<Pos>)
    requires Wf(grid) && Wf(g) && |g| == |grid| && |order| > 0 && order[0] == start
    requires Tagged(grid, g, start, order, done)
    requires OpenedOver(g, g1, found) && InBounds(g, c)
    requires c in order && c !in done && done <= Elems(order)
    requires Discovers(grid, c, Elems(order), found)
    ensures var g2 := if c != start then SetState(g1, c, Closed) else g1;
            Wf(g2) && |g2| == |grid| && Tagged(grid, g2, start, order + found, done + {c})
  {
    var g2 := if c != start then SetState(g1, c, Closed) else g1;
    forall p | InBounds(grid, p)
      ensures StateAt(g2, p) == Tag(grid, start, order + found, done + {c}, p)
    {
      assert p in order + found <==> p in order || p in found;
      assert StateAt(g, p) == Tag(grid, start, order, done, p);
      assert StateAt(g1, p) == if p in found then Open else StateAt(g, p);
      if p in found {
        var k :| 0 <= k < |found| && found[k] == p;
        assert p !in Elems(order);
      }
      if p == c {
        assert c in order && c !in found;
      } else {
        assert StateAt(g2, p) == StateAt(g1, p);
        if p !in found {
          assert StateAt(g1, p) == StateAt(g, p);
        }
      }
    }
  }

  /** Expanding a frontier cell `c` of least recorded distance `m` that is
      not `end` keeps the search invariant: the discovered cells are
      appended to `order` one step further than `c`, `c` joins the expanded
      cells and is tagged Closed unless it is the start. The primed
      parameters hold the state after the expansion. */
  lemma Step(grid: Grid, g: Grid, g1: Grid, g': Grid, start: Pos, end: Pos,
             cameFrom: map<Pos, Pos>, cameFrom': map<Pos, Pos>, order: seq<Pos>, order': seq<Pos>,
             done: set<Pos>, done': set<Pos>, d: map<Pos, nat>, m: nat, c: Pos, found: seq<Pos>)
    requires SearchInv(grid, g, start, end, cameFrom, order, done, d)
    requires c in Elems(order) - done && c != end && m == d[c]
    requires forall f :: f in Elems(order) - done ==> d[c] <= d[f]
    requires Discovers(grid, c, Elems(order), found)
    requires OpenedOver(g, g1, found) && LinkedOver(cameFrom, cameFrom', found, c)
    requires g' == if c != start then SetState(g1, c, Closed) else g1
    requires order' == order + found && done' == done + {c}
    ensures SearchInv(grid, g', start, end, cameFrom', order', done', Extend(d, Elems(found), m + 1))
  {
    StepLinks(grid, start, cameFrom, cameFrom', order, d, c, found);
    StepExplored(grid, start, order, done, d, c, found);
    StepTagged(grid, g, g1, start, order, done, c, found);
    StepShape(grid, g, g', start, order, c, found);
    ElemsAppend(order, found);
  }

  /** `visited.add(start)` right after a dequeue: before the first dequeue
      (`first`) nothing is visited and only `start` has been discovered,
      afterwards every discovered cell is visited; either way the visited
      set is now the set of discovered cells. */
  lemma SeenAll(start: Pos, order: seq<Pos>, first: bool, visited: set<Pos>)
    requires |order| > 0 && order[0] == start
    requires first ==> order == [start] && visited == {}
    requires !first ==> visited == Elems(order)
    ensures visited + {start} == Elems(order)
  {
    assert start in Elems(order);
  }

  lemma WalkSnoc(grid: Grid, w: seq<Pos>, v: Pos)
    requires Wf(grid) && IsWalk(grid, w) && Edge(grid, Last(w), v)
    ensures IsWalk(grid, w + [v]) && (w + [v])[0] == w[0] && Last(w + [v]) == v
  {
  }

  /** Following the predecessor links back from a discovered cell `v` gives
      a walk from the start of exactly the recorded distance of `v`. */
  lemma DistanceWitness(grid: Grid, start: Pos, cameFrom: map<Pos, Pos>, order: seq<Pos>, d: map<Pos, nat>, v: Pos)
    requires Wf(grid) && InBounds(grid, start) && Links(grid, start, cameFrom, order, d) && v in d
    ensures exists w {:trigger WalkFromTo(grid, w, start, v)} :: WalkFromTo(grid, w, start, v) && |w| - 1 == d[v]
    decreases d[v]
  {
    if v == start {
      assert WalkFromTo(grid, [start], start, v);
    } else {
      var u := cameFrom[v];
      DistanceWitness(grid, start, cameFrom, order, d, u);
      var w :| WalkFromTo(grid, w, start, u) && |w| - 1 == d[u];
      WalkSnoc(grid, w, v);
      assert WalkFromTo(grid, w + [v], start, v);
    }
  }

  /** Every recorded distance is the shortest distance from the start. */
  lemma Settled(grid: Grid, g: Grid, start: Pos, end: Pos, cameFrom: map<Pos, Pos>,
                order: seq<Pos>, done: set<Pos>, d: map<Pos, nat>, v: Pos)
    requires SearchInv(grid, g, start, end, cameFrom, order, done, d) && v in d
    ensures ShortestIs(grid, start, v, d[v])
  {
    DistanceWitness(grid, start, cameFrom, order, d, v);
  }

  /** Once every discovered cell has been expanded and `end` is not among
      them, `end` is unreachable from the start. */
  lemma Exhausted(grid: Grid, g: Grid, start: Pos, end: Pos, cameFrom: map<Pos, Pos>,
                  order: seq<Pos>, done: set<Pos>, d: map<Pos, nat>)
    requires SearchInv(grid, g, start, end, cameFrom, order, done, d) && done == Elems(order)
    ensures !Reachable(grid, start, end)
  {
    Unreachable(grid, start, end, done);
  }

  /** What a search leaves behind besides its tags: its predecessor links
      are neighbour links, every expanded cell has all its neighbours
      discovered, and once every discovered cell is expanded the
      discovered cells are exactly those reachable from the start. */
  lemma SearchFacts(grid: Grid, g: Grid, start: Pos, end: Pos, cameFrom: map<Pos, Pos>,
                    order: seq<Pos>, done: set<Pos>, d: map<Pos, nat>)
    requires SearchInv(grid, g, start, end, cameFrom, order, done, d)
    ensures forall v {:trigger cameFrom[v]} :: v in cameFrom ==> Edge(grid, cameFrom[v], v)
    ensures done <= Elems(order) && NeighboursWithin(grid, done, Elems(order))
    ensures done == Elems(order) ==>
              forall v :: InBounds(grid, v) ==> (v in Elems(order) <==> Reachable(grid, start, v))
  {
    if done == Elems(order) {
      assert start in done by { assert order[0] == start; }
      forall v | InBounds(grid, v)
        ensures v in Elems(order) <==> Reachable(grid, start, v)
      {
        if v in Elems(order) {
          Settled(grid, g, start, end, cameFrom, order, done, d, v);
        } else {
          Unreachable(grid, start, v, done);
        }
      }
    }
  }

  /** The tag of cell `p` when a search returns: on success `end` is End,
      the start Start and the cells of `trail` Path, over the tags the
      search had made when it reached `end`; on failure `trail` is empty
      and the tags are those of the finished search. */
  function FinalTag(grid: Grid, start: Pos, end: Pos, found: bool, order: seq<Pos>, done: set<Pos>,
                    trail: seq<Pos>, p: Pos): State
    requires Wf(grid) && InBounds(grid, p)
  {
    if found && p == end then End
    else if found && p == start then Start
    else if p in trail then Path
    else Tag(grid, start, order, done, p)
  }

  /** After a successful search the cells tagged Path are the trail
      without the start, which is re-tagged Start, plus any undiscovered
      cell already tagged Path before the search; the trail without the
      start has one cell fewer than the trail, so a path of `k` steps
      leaves `k - 1` cells tagged Path between start and end. */
  lemma PathTags(grid: Grid, start: Pos, end: Pos, order: seq<Pos>, done: set<Pos>, trail: seq<Pos>)
    requires Wf(grid) && done <= Elems(order)
    requires forall k :: 0 <= k < |trail| ==> trail[k] in Elems(order)
    requires Distinct(trail) && end !in trail && (trail != [] ==> Last(trail) == start)
    ensures forall p :: InBounds(grid, p) ==>
              (FinalTag(grid, start, end, true, order, done, trail, p) == Path <==>
                 p != start && p != end && (p in trail || (p !in order && StateAt(grid, p) == Path)))
    ensures trail != [] ==> |Elems(trail) - {start}| == |trail| - 1
  {
    if trail != [] {
      DistinctCard(trail);
      assert start in Elems(trail);
    }
  }

  /** The chain `ReconstructPath` follows back from `end` is a shortest
      path that ends at the start, and it is empty only when `end` is the
      start. */
  lemma FinishPath(grid: Grid, g: Grid, start: Pos, end: Pos, cameFrom: map<Pos, Pos>,
                   order: seq<Pos>, done: set<Pos>, d: map<Pos, nat>, trail: seq<Pos>)
    requires SearchInv(grid, g, start, end, cameFrom, order, done, d) && end in Elems(order)
    requires trail == [] <==> end !in cameFrom
    requires trail != [] ==> IsChain(cameFrom, end, trail) && Last(trail) !in cameFrom
    ensures trail == [] <==> start == end
    ensures trail != [] ==> Last(trail) == start
    ensures ShortestIs(grid, start, end, |trail|)
    ensures forall k :: 0 <= k < |trail| ==> trail[k] in Elems(order)
  {
    if trail == [] {
      assert InBounds(grid, start);
      ShortestSelf(grid, start);
    } else {
      ChainShortest(grid, start, end, cameFrom, d, trail);
      ChainDistance(cameFrom, d, end, trail);
    }
  }

  /** Tagging the trail Path, then the start Start and `end` End, over the
      tags of the search gives `FinalTag`. */
  lemma FinishTags(grid: Grid, g: Grid, r: Grid, start: Pos, end: Pos, order: seq<Pos>, done: set<Pos>, trail: seq<Pos>)
    requires Wf(grid) && Wf(g) && |g| == |grid| && Wf(r) && |r| == |grid|
    requires InBounds(grid, start) && InBounds(grid, end)
    requires Tagged(grid, g, start, order, done)
    requires forall p :: InBounds(g, p) ==> At(r, p) == if p in trail then At(g, p).(state := Path) else At(g, p)
    ensures var g' := SetState(SetState(r, start, Start), end, End);
            forall p :: InBounds(grid, p) ==> StateAt(g', p) == FinalTag(grid, start, end, true, order, done, trail, p)
  {
    var r1 := SetState(r, start, Start);
    var g' := SetState(r1, end, End);
    forall p | InBounds(grid, p)
      ensures StateAt(g', p) == FinalTag(grid, start, end, true, order, done, trail, p)
    {
      if p != end && p != start {
        assert StateAt(g', p) == StateAt(r1, p) == StateAt(r, p);
        assert StateAt(g, p) == Tag(grid, start, order, done, p);
      }
    }
  }

  /** `reconstruct_path(came_from, end, draw)` followed by
      `start.make_start()` and `end.make_end()`, once `end` has been popped:
      `trail` is a shortest path back to the start, tagged Path, and
      `draws` counts one `draw` call per tagged cell. */
  method Finish(grid: Grid, g: Grid, start: Pos, end: Pos, cameFrom: map<Pos, Pos>,
                ghost order: seq<Pos>, ghost done: set<Pos>, ghost d: map<Pos, nat>)
    returns (g': Grid, trail: seq<Pos>, draws: nat)
    requires SearchInv(grid, g, start, end, cameFrom, order, done, d) && end in Elems(order)
    ensures Wf(g') && |g'| == |grid|
    ensures draws == |trail|
    ensures trail == [] <==> start == end
    ensures trail != [] ==> IsChain(cameFrom, end, trail) && Last(trail) == start
    ensures Distinct(trail) && end !in trail
    ensures ShortestIs(grid, start, end, |trail|)
    ensures forall k :: 0 <= k < |trail| ==> trail[k] in Elems(order)
    ensures forall p :: InBounds(grid, p) ==> StateAt(g', p) == FinalTag(grid, start, end, true, order, done, trail, p)
  {
    var r;
    r, trail, draws := ReconstructPath(g, cameFrom, end, d);
    FinishPath(grid, g, start, end, cameFrom, order, done, d, trail);
    assert InBounds(grid, start) && InBounds(grid, end) by {
      var k :| 0 <= k < |order| && order[k] == end;
    }
    FinishTags(grid, g, r, start, end, order, done, trail);
    g' := SetState(SetState(r, start, Start), end, End);
  }

  /** The tags a search leaves behind differ from the ones it started with
      only by Open, Closed or Path on cells that are not barriers, start and
      end aside. */
  lemma FinalRetag(grid: Grid, g: Grid, start: Pos, end: Pos, found: bool, cameFrom: map<Pos, Pos>,
                   order: seq<Pos>, done: set<Pos>, d: map<Pos, nat>, trail: seq<Pos>)
    requires Wf(grid) && Wf(g) && |g| == |grid|
    requires Shape(grid, g, start, order) && Links(grid, start, cameFrom, order, d) && done <= Elems(order)
    requires forall k :: 0 <= k < |trail| ==> trail[k] in Elems(order)
    requires forall p :: InBounds(grid, p) ==> StateAt(g, p) == FinalTag(grid, start, end, found, order, done, trail, p)
    ensures OnlySearchTags(grid, g, start, end)
  {
    forall p | InBounds(grid, p) && p != start && p != end
      ensures SearchRetag(StateAt(grid, p), StateAt(g, p))
    {
      if p in trail || p in order {
        assert p in Elems(order);
        assert Edge(grid, cameFrom[p], p);
      }
    }
  }
}

=== FILE: grid.dfy ===
/** The square grid of cells: state tags, the pixel geometry each cell is
    drawn with, grid construction, the tag setters and the four-way
    adjacency (`update_neighbours`) that both searches follow. */
module Grid {

  /** The state tag of a cell. The program keeps it as a display colour
      and tests it by comparing colours; `Colour` is that projection. */
  datatype State = Empty | Barrier | Start | End | Open | Closed | Path

  datatype Rgb = Rgb(red: int, green: int, blue: int)

  function Colour(s: State): Rgb
  {
    match s
    case Empty => Rgb(255, 255, 255)    // white
    case Barrier => Rgb(0, 0, 0)        // black
    case Start => Rgb(255, 165, 0)      // orange
    case End => Rgb(64, 224, 208)       // turquoise
    case Open => Rgb(0, 255, 0)         // green
    case Closed => Rgb(255, 0, 0)       // red
    case Path => Rgb(128, 0, 128)       // purple
  }

  /** The colours are pairwise distinct, so every `is_...` colour test of
      the program is the same as a test of the tag. */
  lemma ColourInjective(a: State, b: State)
    ensures Colour(a) == Colour(b) <==> a == b
  {
  }

  datatype Pos = Pos(row: int, col: int)

  /** A cell: its coordinates, its side length in pixels, the grid
      dimension it belongs to and its state tag. */
  datatype Node = Node(row: int, col: int, width: int, totalRows: int, state: State) {

    /** Pixel coordinates of the top-left corner of the cell's square. */
    function X(): int { row * width }
    function Y(): int { col * width }
  }

  type Grid = seq<seq<Node>>

  /** Python's floor division `a // b`. */
  function FloorDiv(a: int, b: int): (q: int)
    requires b != 0
    ensures b > 0 ==> b * q <= a < b * q + b
    ensures b < 0 ==> b * q + b < a <= b * q
  {
    if b > 0 then a / b else (-a) / (-b)
  }

  predicate InBounds(g: Grid, p: Pos)
  {
    0 <= p.row < |g| && 0 <= p.col < |g|
  }

  /** The grid is square and every cell knows its own position and the
      grid's dimension. */
  predicate Wf(g: Grid)
  {
    && (forall i :: 0 <= i < |g| ==> |g[i]| == |g|)
    && (forall i, j :: 0 <= i < |g| && 0 <= j < |g| ==>
          g[i][j].row == i && g[i][j].col == j && g[i][j].totalRows == |g|)
  }

  function At(g: Grid, p: Pos): Node
    requires Wf(g) && InBounds(g, p)
  {
    g[p.row][p.col]
  }

  function StateAt(g: Grid, p: Pos): State
    requires Wf(g) && InBounds(g, p)
  {
    At(g, p).state
  }

  /** Every cell of `g` is `gap` pixels wide. */
  ghost predicate Spacing(g: Grid, gap: int)
    requires Wf(g)
  {
    forall p :: InBounds(g, p) ==> At(g, p).width == gap
  }

  /** `make_grid(rows, width)`: a rows-by-rows grid of Empty cells, each
      `width // rows` pixels wide. A negative `rows` gives the empty grid
      (`range` is empty); `rows == 0` divides by zero, so it is excluded. */
  method MakeGrid(rows: int, width: int) returns (g: Grid)
    requires rows != 0
    ensures |g| == if rows > 0 then rows else 0
    ensures Wf(g)
    ensures Spacing(g, FloorDiv(width, rows))
    ensures forall p :: InBounds(g, p) ==> StateAt(g, p) == Empty
  {
    var gap := FloorDiv(width, rows);
    var n := if rows > 0 then rows else 0;
    g := [];
    var i := 0;
    while i < rows
      invariant 0 <= i <= n && |g| == i
      invariant forall a :: 0 <= a < i ==> |g[a]| == n
      invariant forall a, b :: 0 <= a < i && 0 <= b < n ==>
                  g[a][b] == Node(a, b, gap, rows, Empty)
    {
      var line: seq<Node> := [];
      var j := 0;
      while j < rows
        invariant 0 <= j <= n && |line| == j
        invariant forall b :: 0 <= b < j ==> line[b] == Node(i, b, gap, rows, Empty)
      {
        line := line + [Node(i, j, gap, rows, Empty)];
        j := j + 1;
      }
      g := g + [line];
      i := i + 1;
    }
  }

  /** The tag setters (`make_open`, `make_closed`, `make_barrier`,
      `make_start`, `make_end`, `make_path`, `reset`) are unconditional
      overwrites of one cell's tag. */
  function SetState(g: Grid, p: Pos, s: State): (r: Grid)
    requires Wf(g) && InBounds(g, p)
    ensures Wf(r) && |r| == |g|
    ensures StateAt(r, p) == s
    ensures At(r, p) == At(g, p).(state := s)
    ensures forall q :: InBounds(g, q) && q != p ==> At(r, q) == At(g, q)
  {
    g[p.row := g[p.row][p.col := g[p.row][p.col].(state := s)]]
  }

  /** Setting a tag twice keeps only the second. */
  lemma SetStateTwice(g: Grid, p: Pos, s: State, t: State)
    requires Wf(g) && InBounds(g, p)
    ensures SetState(SetState(g, p, s), p, t) == SetState(g, p, t)
  {
    var g1 := SetState(g, p, s);
    assert g1[p.row] == g[p.row][p.col := g[p.row][p.col].(state := s)];
    assert g1[p.row][p.col := g1[p.row][p.col].(state := t)] == g[p.row][p.col := g[p.row][p.col].(state := t)];
  }

  /** Setting a cell to the tag it already has changes nothing. */
  lemma SetStateSame(g: Grid, p: Pos)
    requires Wf(g) && InBounds(g, p)
    ensures SetState(g, p, StateAt(g, p)) == g
  {
    assert g[p.row][p.col := g[p.row][p.col]] == g[p.row];
  }

  function Abs(x: int): nat
  {
    if x < 0 then -x else x
  }

  /** Manhattan distance between two cells (the heuristic `h`, which no
      search calls); two cells are adjacent when it is 1. */
  function H(p: Pos, q: Pos): nat
  {
    Abs(p.row - q.row) + Abs(p.col - q.col)
  }

  predicate Adjacent(p: Pos, q: Pos)
  {
    H(p, q) == 1
  }

  /** Rank of the direction from `p` to `q` in the order the neighbours are
      listed: up (row - 1), down, left (col - 1), right. */
  function DirRank(p: Pos, q: Pos): nat
  {
    if q.row < p.row then 0
    else if q.row > p.row then 1
    else if q.col < p.col then 2
    else 3
  }

  /** The four cells adjacent to `p` are the ones one step up, down, left
      or right of it. */
  lemma AdjacentCases(p: Pos)
    ensures forall q :: Adjacent(p, q) <==>
              q == Pos(p.row - 1, p.col) || q == Pos(p.row + 1, p.col) ||
              q == Pos(p.row, p.col - 1) || q == Pos(p.row, p.col + 1)
  {
  }

  /** One probe of `update_neighbours`: `[q]` when the bounds test `inside`
      passes and `q` is not a barrier, `[]` otherwise. */
  function Probe(g: Grid, inside: bool, q: Pos): (r: seq<Pos>)
    requires Wf(g) && (inside ==> InBounds(g, q))
    ensures forall x :: x in r <==> inside && x == q && StateAt(g, q) != Barrier
    ensures |r| <= 1 && (|r| == 1 ==> r[0] == q)
  {
    if inside && g[q.row][q.col].state != Barrier then [q] else []
  }

  /** Lists of at most one cell each, whose cells lie in directions of
      increasing rank, concatenate to a list ordered by direction rank. */
  lemma RankedConcat(p: Pos, a: seq<Pos>, b: seq<Pos>, c: seq<Pos>, d: seq<Pos>)
    requires |a| <= 1 && |b| <= 1 && |c| <= 1 && |d| <= 1
    requires forall q :: q in a ==> DirRank(p, q) == 0
    requires forall q :: q in b ==> DirRank(p, q) == 1
    requires forall q :: q in c ==> DirRank(p, q) == 2
    requires forall q :: q in d ==> DirRank(p, q) == 3
    ensures var r := a + b + c + d;
            forall i, j :: 0 <= i < j < |r| ==> DirRank(p, r[i]) < DirRank(p, r[j])
  {
    var r := a + b + c + d;
    forall i, j | 0 <= i < j < |r|
      ensures DirRank(p, r[i]) < DirRank(p, r[j])
    {
      assert r[i] in r && r[j] in r;
    }
  }

  /** `update_neighbours`: the orthogonally adjacent in-bounds cells that are
      not barriers, listed up, down, left, right. */
  function Neighbours(g: Grid, p: Pos): (r: seq<Pos>)
    requires Wf(g) && InBounds(g, p)
    ensures |r| <= 4
    ensures forall q :: q in r <==> InBounds(g, q) && Adjacent(p, q) && StateAt(g, q) != Barrier
    ensures forall i, j :: 0 <= i < j < |r| ==> DirRank(p, r[i]) < DirRank(p, r[j])
  {
    var n := At(g, p);
    AdjacentCases(p);
    var up := Probe(g, n.row > 0, Pos(n.row - 1, n.col));
    var down := Probe(g, n.row < n.totalRows - 1, Pos(n.row + 1, n.col));
    var left := Probe(g, n.col > 0, Pos(n.row, n.col - 1));
    var right := Probe(g, n.col < n.totalRows - 1, Pos(n.row, n.col + 1));
    RankedConcat(p, up, down, left, right);
    up + down + left + right
  }

  /** Neighbour lists never repeat a cell. */
  lemma NeighboursDistinct(g: Grid, p: Pos)
    requires Wf(g) && InBounds(g, p)
    ensures forall i, j :: 0 <= i < j < |Neighbours(g, p)| ==> Neighbours(g, p)[i] != Neighbours(g, p)[j]
  {
    var r := Neighbours(g, p);
    forall i, j | 0 <= i < j < |r|
      ensures r[i] != r[j]
    {
      assert DirRank(p, r[i]) < DirRank(p, r[j]);
    }
  }

  /** The cells of the first `k` rows of an n-by-n grid, row by row. */
  function Cells(n: nat, k: nat): set<Pos>
  {
    if k == 0 then {} else Cells(n, k - 1) + RowCells(n, k - 1)
  }

  /** The first `n` cells of row `r`. */
  function RowCells(n: nat, r: int): set<Pos>
  {
    if n == 0 then {} else RowCells(n - 1, r) + {Pos(r, n - 1)}
  }

  lemma {:induction false} RowCellsIn(n: nat, r: int)
    ensures forall p :: p in RowCells(n, r) <==> p.row == r && 0 <= p.col < n
  {
    if n > 0 {
      RowCellsIn(n - 1, r);
    }
  }

  lemma {:induction false} RowCellsCard(n: nat, r: int)
    ensures |RowCells(n, r)| == n
  {
    if n > 0 {
      RowCellsCard(n - 1, r);
      RowCellsIn(n - 1, r);
      assert Pos(r, n - 1) !in RowCells(n - 1, r);
    }
  }

  /** The first `k` rows hold exactly the cells with a row below `k` and a
      column below `n`. */
  lemma {:induction false} CellsIn(n: nat, k: nat)
    ensures forall p :: p in Cells(n, k) <==> 0 <= p.row < k && 0 <= p.col < n
  {
    if k > 0 {
      CellsIn(n, k - 1);
      RowCellsIn(n, k - 1);
    }
  }

  /** The first `k` rows of an n-by-n grid hold `k * n` cells. */
  lemma {:induction false} CellsCard(n: nat, k: nat)
    ensures |Cells(n, k)| == k * n
  {
    if k > 0 {
      var m := k - 1;
      CellsCard(n, m);
      RowCellsCard(n, m);
      CellsRowDisjoint(n, m);
      assert Cells(n, k) == Cells(n, m) + RowCells(n, m);
      assert |Cells(n, k)| == m * n + n;
      MulPred(k, n);
    }
  }

  /** Row `k` is not among the first `k` rows. */
  lemma CellsRowDisjoint(n: nat, k: nat)
    ensures Cells(n, k) !! RowCells(n, k)
  {
    CellsIn(n, k);
    RowCellsIn(n, k);
  }

  lemma MulPred(k: int, n: int)
    ensures (k - 1) * n + n == k * n
  {
  }

  function Elems<T>(s: seq<T>): set<T>
  {
    set x | x in s
  }

  lemma ElemsAppend<T>(s: seq<T>, t: seq<T>)
    ensures Elems(s + t) == Elems(s) + Elems(t)
  {
  }

  predicate Distinct<T(==)>(s: seq<T>)
  {
    forall i, j :: 0 <= i < j < |s| ==> s[i] != s[j]
  }

  lemma {:induction false} DistinctCard<T>(s: seq<T>)
    requires Distinct(s)
    ensures |Elems(s)| == |s|
  {
    if |s| > 0 {
      DistinctCard(s[..|s| - 1]);
      assert Elems(s) == Elems(s[..|s| - 1]) + {s[|s| - 1]};
      assert s[|s| - 1] !in Elems(s[..|s| - 1]);
    } else {
      assert Elems(s) == {};
    }
  }

  /** A sequence of distinct cells of an n-by-n grid has at most n * n
      entries. */
  lemma DistinctCellsBound(s: seq<Pos>, n: nat)
    requires Distinct(s)
    requires forall k :: 0 <= k < |s| ==> 0 <= s[k].row < n && 0 <= s[k].col < n
    ensures |s| <= n * n
  {
    DistinctCard(s);
    CellsIn(n, n);
    CellsCard(n, n);
    SubsetCard(Elems(s), Cells(n, n));
  }

  lemma SubsetCard<T>(a: set<T>, b: set<T>)
    requires a <= b
    ensures |a| <= |b|
  {
    assert b == a + (b - a);
  }
}

=== FILE: pixels.dfy ===
/** Mapping between pixels and cells: each cell is drawn as a `gap`-pixel
    square at (row * gap, col * gap), and `get_clicked_pos` maps a pixel
    back to the cell whose square contains it. */
module Pixels {
  import opened Wrappers
  import opened Grid

  /** `get_clicked_pos(pos, rows, width)`. The cell side is `width // rows`;
      the first pixel coordinate selects the row and the second the column.
      `None` stands for the division by zero the program hits when the
      window is narrower than the number of rows. */
  function ClickedPos(pos: (int, int), rows: int, width: int): (r: Option<Pos>)
    requires rows > 0 && width >= 0
    ensures r.None? <==> width < rows
    ensures r.Some? ==> var gap := width / rows;
              && gap * r.value.row <= pos.0 < gap * r.value.row + gap
              && gap * r.value.col <= pos.1 < gap * r.value.col + gap
  {
    var gap := FloorDiv(width, rows);
    if gap == 0 then None
    else
      var row := FloorDiv(pos.0, gap);
      var col := FloorDiv(pos.1, gap);
      Some(Pos(row, col))
  }

  /** For a positive factor, a strictly smaller multiplicand gives a
      product smaller by at least the factor. */
  lemma MulStep(b: int, x: int, y: int)
    requires b >= 0 && x < y
    ensures b * x + b <= b * y
  {
    var d := y - x - 1;
    assert d >= 0;
    assert b * d >= 0;
    assert b * y == b * x + b * d + b;
  }

  lemma MulLe(b: int, x: int, y: int)
    requires b >= 0 && x <= y
    ensures b * x <= b * y
  {
    if x < y {
      MulStep(b, x, y);
    }
  }

  /** Floor division has exactly one answer. */
  lemma FloorDivUnique(a: int, b: int, k: int)
    requires b > 0 && b * k <= a < b * k + b
    ensures FloorDiv(a, b) == k
  {
    var q := FloorDiv(a, b);
    if q < k {
      MulStep(b, q, k);
    } else if q > k {
      MulStep(b, k, q);
    }
  }

  /** Round trip: clicking anywhere inside the square of a cell of a grid
      built with side `width // |g|` selects that cell. */
  lemma ClickRoundTrip(g: Grid, width: int, p: Pos, a: int, b: int)
    requires Wf(g) && |g| > 0 && width >= 0 && InBounds(g, p)
    requires Spacing(g, width / |g|)
    requires 0 <= a < width / |g| && 0 <= b < width / |g|
    ensures ClickedPos((At(g, p).X() + a, At(g, p).Y() + b), |g|, width) == Some(p)
  {
    var gap := width / |g|;
    var n := At(g, p);
    assert n.row == p.row && n.col == p.col && n.width == gap;
    FloorDivUnique(n.X() + a, gap, p.row);
    FloorDivUnique(n.Y() + b, gap, p.col);
  }

  /** A pixel inside the `rows * gap` square drawn by the grid selects a
      cell of the grid. */
  lemma ClickInBounds(pos: (int, int), rows: int, width: int)
    requires rows > 0 && width >= rows
    requires 0 <= pos.0 < rows * (width / rows) && 0 <= pos.1 < rows * (width / rows)
    ensures ClickedPos(pos, rows, width).Some?
    ensures var p := ClickedPos(pos, rows, width).value; 0 <= p.row < rows && 0 <= p.col < rows
  {
    var gap := width / rows;
    var p := ClickedPos(pos, rows, width).value;
    assert gap * p.row <= pos.0 < gap * p.row + gap;
    assert gap * p.col <= pos.1 < gap * p.col + gap;
    assert rows * gap == gap * rows;
    if p.row < 0 {
      MulStep(gap, p.row, 0);
    } else if p.row >= rows {
      MulLe(gap, rows, p.row);
    }
    if p.col < 0 {
      MulStep(gap, p.col, 0);
    } else if p.col >= rows {
      MulLe(gap, rows, p.col);
    }
  }
}

=== FILE: placement.dfy ===
/** The event handling of `main`: a 50-row grid in a 750-pixel window, a
    left click places the start, then the end, then barriers, a right
    click clears a cell, space runs `dijkstra` once both ends are placed
    and `c` starts over with a fresh grid. Drawing and the window itself
    are left out; what remains is how each event changes the grid and the
    remembered start and end. */
module Placement {
  import opened Wrappers
  import opened Grid
  import opened Walks
  import opened Pixels
  import opened Search
  import opened Explore
  import opened Dijkstra

  const ROWS: int := 50
  const WIDTH: int := 750

  datatype Key = Space | KeyC | OtherKey
  datatype Kind = Quit | KeyDown(key: Key) | OtherEvent

  /** One event of a `pygame.event.get()` batch together with the mouse
      state (`pygame.mouse.get_pressed()`, `pygame.mouse.get_pos()`) seen
      while it is handled. */
  datatype Input = Input(kind: Kind, leftHeld: bool, rightHeld: bool, mouse: (int, int))

  /** The local state of `main`: the grid, `start`, `end` and `run`. */
  datatype App = App(grid: Grid, start: Option<Pos>, end: Option<Pos>, run: bool)

  /** The mouse position lies inside the window. */
  predicate InWindow(pos: (int, int))
  {
    0 <= pos.0 < WIDTH && 0 <= pos.1 < WIDTH
  }

  /** What `main` keeps true between events: the grid is the 50-row grid,
      the remembered start (end) is the one cell tagged Start (End), and
      the two are different cells. */
  ghost predicate Placed(a: App)
  {
    && Wf(a.grid) && |a.grid| == ROWS
    && (a.start.Some? ==> InBounds(a.grid, a.start.value) && StateAt(a.grid, a.start.value) == Start)
    && (a.end.Some? ==> InBounds(a.grid, a.end.value) && StateAt(a.grid, a.end.value) == End)
    && (forall p :: InBounds(a.grid, p) && StateAt(a.grid, p) == Start ==> a.start == Some(p))
    && (forall p :: InBounds(a.grid, p) && StateAt(a.grid, p) == End ==> a.end == Some(p))
  }

  /** At most one cell is tagged Start and at most one End, and never the
      same cell. */
  lemma PlacedUnique(a: App, p: Pos, q: Pos)
    requires Placed(a) && InBounds(a.grid, p) && InBounds(a.grid, q)
    ensures StateAt(a.grid, p) == Start && StateAt(a.grid, q) == Start ==> p == q
    ensures StateAt(a.grid, p) == End && StateAt(a.grid, q) == End ==> p == q
    ensures a.start.Some? && a.end.Some? ==> a.start != a.end
  {
  }

  /** `get_clicked_pos(pos, ROWS, width)` on a pixel of the window: the
      750-pixel window holds exactly 50 cells of 15 pixels, so every pixel
      selects a cell of the grid. */
  function Cell(pos: (int, int)): (p: Pos)
    requires InWindow(pos)
    ensures 0 <= p.row < ROWS && 0 <= p.col < ROWS
    ensures ClickedPos(pos, ROWS, WIDTH) == Some(p)
  {
    ClickInBounds(pos, ROWS, WIDTH);
    ClickedPos(pos, ROWS, WIDTH).value
  }

  /** The left-button branch on the cell `p`: the first free end (start
      before end) is placed there unless `p` is the other end, and
      otherwise a cell that is neither end becomes a barrier. */
  function LeftClick(a: App, p: Pos): (r: App)
    requires Placed(a) && InBounds(a.grid, p)
    ensures Placed(r) && r.run == a.run
    ensures a.start.Some? ==> r.start == a.start
    ensures a.end.Some? ==> r.end == a.end
    ensures a.start.None? && a.end != Some(p) ==> r.start == Some(p)
    ensures a.start.Some? && a.end.None? && a.start != Some(p) ==> r.end == Some(p)
    ensures a.start == Some(p) || a.end == Some(p) ==> r == a
    ensures StateAt(r.grid, p) == if r.start == Some(p) then Start else if r.end == Some(p) then End else Barrier
    ensures forall q :: InBounds(a.grid, q) && q != p ==> At(r.grid, q) == At(a.grid, q)
  {
    if a.start.None? && Some(p) != a.end then
      a.(grid := SetState(a.grid, p, Start), start := Some(p))
    else if a.end.None? && Some(p) != a.start then
      a.(grid := SetState(a.grid, p, End), end := Some(p))
    else if Some(p) != a.start && Some(p) != a.end then
      a.(grid := SetState(a.grid, p, Barrier))
    else
      a
  }

  /** The right-button branch on the cell `p`: the cell is reset to Empty
      and forgotten as start or end. */
  function RightClick(a: App, p: Pos): (r: App)
    requires Placed(a) && InBounds(a.grid, p)
    ensures Placed(r) && r.run == a.run
    ensures StateAt(r.grid, p) == Empty
    ensures r.start == if a.start == Some(p) then None else a.start
    ensures r.end == if a.end == Some(p) then None else a.end
    ensures forall q :: InBounds(a.grid, q) && q != p ==> At(r.grid, q) == At(a.grid, q)
  {
    var g := SetState(a.grid, p, Empty);
    if a.start == Some(p) then a.(grid := g, start := None)
    else if a.end == Some(p) then a.(grid := g, end := None)
    else a.(grid := g)
  }

  /** A right click on an empty cell undoes a left click on it, whatever
      the left click placed there. */
  lemma RightUndoesLeft(a: App, p: Pos)
    requires Placed(a) && InBounds(a.grid, p) && StateAt(a.grid, p) == Empty
    ensures RightClick(LeftClick(a, p), p) == a
  {
    var l := LeftClick(a, p);
    assert a.start != Some(p) && a.end != Some(p);
    SetStateSame(a.grid, p);
    if a.start.None? {
      SetStateTwice(a.grid, p, Start, Empty);
    } else if a.end.None? {
      SetStateTwice(a.grid, p, End, Empty);
    } else {
      SetStateTwice(a.grid, p, Barrier, Empty);
    }
  }

  /** The mouse part of one event: the left button wins over the right. */
  function Mouse(a: App, e: Input): (r: App)
    requires Placed(a) && InWindow(e.mouse)
    ensures Placed(r) && r.run == a.run
  {
    if e.leftHeld then LeftClick(a, Cell(e.mouse))
    else if e.rightHeld then RightClick(a, Cell(e.mouse))
    else a
  }

  /** The search's tags keep the placement: the start and end keep their
      tags, and no other cell becomes a start or an end. */
  lemma SearchKeepsPlaced(a: App, g: Grid)
    requires Placed(a) && a.start.Some? && a.end.Some?
    requires Wf(g) && |g| == |a.grid|
    requires OnlySearchTags(a.grid, g, a.start.value, a.end.value)
    requires StateAt(g, a.start.value) == Start && StateAt(g, a.end.value) == End
    ensures Placed(a.(grid := g))
  {
    forall p | InBounds(g, p) && p != a.start.value && p != a.end.value
      ensures StateAt(g, p) != Start && StateAt(g, p) != End
    {
      assert SearchRetag(StateAt(a.grid, p), StateAt(g, p));
    }
  }

  /** What `dijkstra(draw, grid, s, t)` leaves behind, with `g` the tags
      afterwards: the result reports reachability; the trail is a shortest
      walk back from `t` to `s`; the discovered cells `order` start at `s`,
      the expanded ones have all their neighbours discovered, and on
      failure everything discovered was expanded and the discovered cells
      are exactly those reachable from `s`; the tags are Open, Closed and
      Path as the search left them. */
  ghost predicate Searched(grid: Grid, s: Pos, t: Pos, result: Option<bool>,
                           order: seq<Pos>, expanded: seq<Pos>, trail: seq<Pos>, g: Grid)
    requires Wf(grid)
  {
    && (result == None || result == Some(true))
    && (result.Some? <==> Reachable(grid, s, t))
    && Distinct(trail) && t !in trail
    && (result.Some? ==> ShortestIs(grid, s, t, |trail|) && (trail == [] <==> s == t))
    && (result.Some? && trail != [] ==> WalkFromTo(grid, Forwards(trail, t), s, t))
    && (result.None? ==> trail == [])
    && |order| > 0 && order[0] == s && Distinct(order)
    && Elems(expanded) <= Elems(order) && NeighboursWithin(grid, Elems(expanded), Elems(order))
    && (result.None? ==> && Elems(expanded) == Elems(order)
                         && forall v :: InBounds(grid, v) ==> (v in Elems(order) <==> Reachable(grid, s, v)))
    && Wf(g) && |g| == |grid|
    && forall p :: InBounds(grid, p) ==>
         StateAt(g, p) == FinalTag(grid, s, t, result.Some?, order, Elems(expanded), trail, p)
  }

  /** `dijkstra` on the placed start and end, with every cell's neighbour
      list recomputed just before (the search's neighbour lists are those
      of the grid it is given). */
  method RunSearch(a: App) returns (r: App, result: Option<bool>, order: seq<Pos>, expanded: seq<Pos>, trail: seq<Pos>)
    requires Placed(a) && a.start.Some? && a.end.Some?
    ensures Placed(r) && r.start == a.start && r.end == a.end && r.run == a.run
    ensures result == None || result == Some(true)
    ensures result.Some? <==> Reachable(a.grid, a.start.value, a.end.value)
    ensures result.Some? ==> ShortestIs(a.grid, a.start.value, a.end.value, |trail|)
    ensures OnlySearchTags(a.grid, r.grid, a.start.value, a.end.value)
    ensures forall p :: InBounds(a.grid, p) ==>
              StateAt(r.grid, p) == FinalTag(a.grid, a.start.value, a.end.value, result.Some?, order, Elems(expanded), trail, p)
    ensures Searched(a.grid, a.start.value, a.end.value, result, order, expanded, trail, r.grid)
  {
    var s, t := a.start.value, a.end.value;
    PlacedUnique(a, s, t);
    var g, cameFrom, distance, draws, pops;
    result, g, cameFrom, distance, order, trail, draws, expanded, pops := Dijkstra.Dijkstra(a.grid, s, t);
    assert StateAt(g, s) == FinalTag(a.grid, s, t, result.Some?, order, Elems(expanded), trail, s);
    assert StateAt(g, t) == FinalTag(a.grid, s, t, result.Some?, order, Elems(expanded), trail, t);
    SearchKeepsPlaced(a, g);
    r := a.(grid := g);
  }

  /** The handling of one event: `QUIT` clears `run`, the mouse buttons
      place or clear a cell, space runs the search once both ends are
      placed and `c` starts over. `ran` tells whether a search ran and
      `result` is what it returned; `order`, `expanded` and `trail` are its
      discovered cells, expanded cells and path, which the grid's tags
      show afterwards. */
  method Handle(a: App, e: Input) returns (r: App, ran: bool, result: Option<bool>, order: seq<Pos>, expanded: seq<Pos>, trail: seq<Pos>)
    requires Placed(a) && InWindow(e.mouse)
    ensures Placed(r)
    ensures r.run == (a.run && e.kind != Quit)
    ensures var m := Mouse(a, e);
            ran <==> e.kind == KeyDown(Space) && m.start.Some? && m.end.Some?
    ensures var m := Mouse(a, e);
            ran ==> && r.start == m.start && r.end == m.end
                    && (result.Some? <==> Reachable(m.grid, m.start.value, m.end.value))
                    && (result.Some? ==> ShortestIs(m.grid, m.start.value, m.end.value, |trail|))
                    && OnlySearchTags(m.grid, r.grid, m.start.value, m.end.value)
                    && forall p :: InBounds(m.grid, p) ==>
                         StateAt(r.grid, p) == FinalTag(m.grid, m.start.value, m.end.value, result.Some?, order, Elems(expanded), trail, p)
    ensures var m := Mouse(a, e);
            ran ==> Searched(m.grid, m.start.value, m.end.value, result, order, expanded, trail, r.grid)
    ensures e.kind == KeyDown(KeyC) ==>
              && r.start.None? && r.end.None? && Spacing(r.grid, WIDTH / ROWS)
              && forall p :: InBounds(r.grid, p) ==> StateAt(r.grid, p) == Empty
    ensures !ran && e.kind != KeyDown(KeyC) ==> r == Mouse(a, e).(run := r.run)
  {
    r := a;
    if e.kind == Quit {
      r := r.(run := false);
    }
    assert Mouse(r, e) == Mouse(a, e).(run := r.run);
    r := Mouse(r, e);
    ran, result, order, expanded, trail := false, None, [], [], [];
    if e.kind.KeyDown? {
      if e.kind.key == Space && r.start.Some? && r.end.Some? {
        r, result, order, expanded, trail := RunSearch(r);
        ran := true;
      }
      if e.kind.key == KeyC {
        var g := MakeGrid(ROWS, WIDTH);
        r := r.(grid := g, start := None, end := None);
      }
    }
  }

  /** The state `main` starts from: a fresh grid, no start, no end. */
  method Initial() returns (a: App)
    ensures Placed(a) && a.start.None? && a.end.None? && a.run
    ensures forall p :: InBounds(a.grid, p) ==> StateAt(a.grid, p) == Empty
  {
    var g := MakeGrid(ROWS, WIDTH);
    a := App(g, None, None, true);
  }

  /** `for event in pygame.event.get()`: every event of one batch is
      handled in turn, and `run` ends up cleared exactly when it already was
      or the batch held a `QUIT`. */
  method HandleBatch(a: App, batch: seq<Input>) returns (r: App)
    requires Placed(a) && forall j :: 0 <= j < |batch| ==> InWindow(batch[j].mouse)
    ensures Placed(r)
    ensures r.run <==> a.run && forall j :: 0 <= j < |batch| ==> batch[j].kind != Quit
  {
    r := a;
    var k := 0;
    while k < |batch|
      invariant 0 <= k <= |batch| && Placed(r)
      invariant r.run <==> a.run && forall j :: 0 <= j < k ==> batch[j].kind != Quit
    {
      var ran, result, order, expanded, trail;
      r, ran, result, order, expanded, trail := Handle(r, batch[k]);
      k := k + 1;
    }
  }

  /** `main`'s loop over the event batches of successive frames: every
      event of a batch is handled, and the loop stops after the first batch
      that held a `QUIT`. `handled` counts the batches handled. */
  method Run(frames: seq<seq<Input>>) returns (a: App, handled: nat)
    requires forall i, j :: 0 <= i < |frames| && 0 <= j < |frames[i]| ==> InWindow(frames[i][j].mouse)
    ensures Placed(a) && handled <= |frames|
    ensures a.run <==> forall i, j :: 0 <= i < handled && 0 <= j < |frames[i]| ==> frames[i][j].kind != Quit
    ensures handled < |frames| ==> !a.run
    ensures handled > 0 ==> forall i, j :: 0 <= i < handled - 1 && 0 <= j < |frames[i]| ==> frames[i][j].kind != Quit
  {
    a := Initial();
    handled := 0;
    while a.run && handled < |frames|
      invariant Placed(a) && handled <= |frames|
      invariant a.run <==> forall i, j :: 0 <= i < handled && 0 <= j < |frames[i]| ==> frames[i][j].kind != Quit
      invariant handled > 0 ==> forall i, j :: 0 <= i < handled - 1 && 0 <= j < |frames[i]| ==> frames[i][j].kind != Quit
    {
      a := HandleBatch(a, frames[handled]);
      handled := handled + 1;
    }
  }
}

=== FILE: reconstruct.dfy ===
/** Path reconstruction: walking the predecessor map back from the end
    cell, tagging every predecessor as Path and drawing after each. */
module Reconstruct {
  import opened Grid
  import opened Walks

  /** `reconstruct_path(came_from, end, draw)`. The loop follows
      `cameFrom` from `t` until it reaches a cell without a predecessor;
      it terminates because `rank` strictly decreases along every link
      (the program loops forever on a cyclic map). `draws` counts the calls
      of the `draw` callback, `trail` lists the tagged cells in the order
      they were tagged. */
  method ReconstructPath(g: Grid, cameFrom: map<Pos, Pos>, t: Pos, ghost rank: map<Pos, nat>)
    returns (r: Grid, trail: seq<Pos>, draws: nat)
    requires Wf(g)
    requires forall v {:trigger cameFrom[v]} :: v in cameFrom ==> InBounds(g, cameFrom[v])
    requires forall v {:trigger cameFrom[v]} :: v in cameFrom ==> v in rank && cameFrom[v] in rank && rank[cameFrom[v]] < rank[v]
    ensures Wf(r) && |r| == |g|
    ensures draws == |trail|
    ensures trail == [] <==> t !in cameFrom
    ensures trail != [] ==> IsChain(cameFrom, t, trail) && Last(trail) !in cameFrom
    ensures Distinct(trail) && t !in trail
    ensures forall p :: InBounds(g, p) ==>
              At(r, p) == if p in trail then At(g, p).(state := Path) else At(g, p)
  {
    r := g;
    trail := [];
    draws := 0;
    var current := t;
    while current in cameFrom
      invariant Wf(r) && |r| == |g|
      invariant draws == |trail|
      invariant trail == [] ==> current == t
      invariant t !in cameFrom ==> trail == []
      invariant trail != [] ==> current == Last(trail) && IsChain(cameFrom, t, trail)
      invariant Distinct(trail) && t !in trail
      invariant trail != [] ==> t in rank && current in rank && rank[current] < rank[t]
      invariant forall i :: 0 <= i < |trail| ==> trail[i] in rank && rank[current] <= rank[trail[i]]
      invariant forall p :: InBounds(g, p) ==>
                  At(r, p) == if p in trail then At(g, p).(state := Path) else At(g, p)
      decreases if current in cameFrom then rank[current] + 1 else 0
    {
      ghost var before, prev, link := r, trail, current;
      current := cameFrom[current];
      r := SetState(r, current, Path);
      trail := trail + [current];
      draws := draws + 1;
      assert IsChain(cameFrom, t, trail) by {
        forall k | 0 <= k < |trail| - 1
          ensures trail[k] in cameFrom && trail[k + 1] == cameFrom[trail[k]]
        {
          assert trail[k] == prev[k];
          if k == |prev| - 1 {
            assert trail[k] == link;
          }
        }
      }
      forall i | 0 <= i < |trail|
        ensures trail[i] in rank && rank[current] <= rank[trail[i]]
      {
        if i < |prev| {
          assert trail[i] == prev[i];
        }
      }
      forall p | InBounds(g, p)
        ensures At(r, p) == if p in trail then At(g, p).(state := Path) else At(g, p)
      {
        if p != current {
          assert At(r, p) == At(before, p);
          assert p in trail <==> p in prev;
        }
      }
    }
  }
}

=== FILE: search.dfy ===
/** Pieces both searches share: the neighbour scan's choice of newly
    discovered cells and the tag a cell carries part-way through a run. */
module Search {
  import opened Grid
  import opened Walks

  /** The neighbours a scan has discovered after looking at the first `k`
      entries of the neighbour list `nbs`: those not yet visited, in list
      order. */
  function Unvisited(nbs: seq<Pos>, visited: set<Pos>, k: nat): seq<Pos>
    requires k <= |nbs|
  {
    if k == 0 then []
    else if nbs[k - 1] in visited then Unvisited(nbs, visited, k - 1)
    else Unvisited(nbs, visited, k - 1) + [nbs[k - 1]]
  }

  /** The discovered cells are the unvisited ones among the first `k`
      neighbours. */
  lemma {:induction false} UnvisitedIn(nbs: seq<Pos>, visited: set<Pos>, k: nat)
    requires k <= |nbs|
    ensures forall q :: q in Unvisited(nbs, visited, k) <==> q in nbs[..k] && q !in visited
  {
    if k > 0 {
      UnvisitedIn(nbs, visited, k - 1);
      assert nbs[..k] == nbs[..k - 1] + [nbs[k - 1]];
    }
  }

  /** In a list without repetitions, entry `k` is not among the cells
      discovered before it. */
  lemma UnvisitedFresh(nbs: seq<Pos>, visited: set<Pos>, k: nat)
    requires k < |nbs| && Distinct(nbs)
    ensures nbs[k] !in Unvisited(nbs, visited, k)
  {
    UnvisitedIn(nbs, visited, k);
    assert forall i :: 0 <= i < k ==> nbs[i] != nbs[k];
  }

  /** A neighbour list without repetitions gives a discovered list without
      repetitions. */
  lemma {:induction false} UnvisitedDistinct(nbs: seq<Pos>, visited: set<Pos>, k: nat)
    requires k <= |nbs| && Distinct(nbs)
    ensures Distinct(Unvisited(nbs, visited, k))
  {
    if k > 0 {
      UnvisitedDistinct(nbs, visited, k - 1);
      UnvisitedIn(nbs, visited, k - 1);
    }
  }

  /** The tags `t` of a scan that has tagged the cells of `d` Open on top
      of the tags `g` it started from. */
  ghost predicate OpenedOver(g: Grid, t: Grid, d: seq<Pos>)
  {
    && Wf(g) && Wf(t) && |t| == |g|
    && forall p :: InBounds(g, p) ==> StateAt(t, p) == if p in d then Open else StateAt(g, p)
  }

  /** `make_open` on one more cell keeps `OpenedOver`. */
  lemma OpenStep(g: Grid, t: Grid, d: seq<Pos>, nb: Pos)
    requires OpenedOver(g, t, d) && InBounds(g, nb)
    ensures OpenedOver(g, SetState(t, nb, Open), d + [nb])
  {
    var t' := SetState(t, nb, Open);
    forall p | InBounds(g, p)
      ensures StateAt(t', p) == if p in d + [nb] then Open else StateAt(g, p)
    {
      if p != nb {
        assert StateAt(t', p) == StateAt(t, p);
      }
    }
  }

  /** The predecessor map `m` of a scan that has linked the cells of `d` to
      `c` on top of the map `m0` it started from. */
  ghost predicate LinkedOver(m0: map<Pos, Pos>, m: map<Pos, Pos>, d: seq<Pos>, c: Pos)
  {
    && m.Keys == m0.Keys + Elems(d)
    && forall v {:trigger m[v]} :: v in m ==> m[v] == if v in d then c else m0[v]
  }

  /** `came_from[nb] = c` for one more cell keeps `LinkedOver`. */
  lemma LinkStep(m0: map<Pos, Pos>, m: map<Pos, Pos>, d: seq<Pos>, c: Pos, nb: Pos)
    requires LinkedOver(m0, m, d, c)
    ensures LinkedOver(m0, m[nb := c], d + [nb], c)
  {
    ElemsAppend(d, [nb]);
  }

  /** In a sequence without repetitions, the cells before position `h` are
      exactly the cells not at or after it. */
  lemma SplitElems(s: seq<Pos>, h: nat)
    requires Distinct(s) && h <= |s|
    ensures Elems(s) - Elems(s[h..]) == Elems(s[..h])
    ensures Elems(s) == Elems(s[..h]) + Elems(s[h..])
    ensures Elems(s[..h]) !! Elems(s[h..])
  {
    assert s == s[..h] + s[h..];
    forall x | x in Elems(s[..h])
      ensures x !in Elems(s[h..])
    {
      var i :| 0 <= i < h && s[i] == x;
      assert forall j :: h <= j < |s| ==> s[j] != s[i];
    }
  }

  /** The tag of cell `p` part-way through a run that started from `start`
      on `grid`, has discovered the cells of `order` and has expanded
      those of `done`: the start keeps its tag, expanded cells are Closed,
      the other discovered cells Open and the rest untouched. */
  function Tag(grid: Grid, start: Pos, order: seq<Pos>, done: set<Pos>, p: Pos): State
    requires Wf(grid) && InBounds(grid, p)
  {
    if p == start then StateAt(grid, p)
    else if p in done then Closed
    else if p in order then Open
    else StateAt(grid, p)
  }

  /** What a search run may do to a cell other than its start and end:
      leave its tag alone, or tag a cell that is not a barrier Open, Closed
      or Path. */
  predicate SearchRetag(before: State, after: State)
  {
    after == before || ((after == Open || after == Closed || after == Path) && before != Barrier)
  }

  ghost predicate OnlySearchTags(grid: Grid, g: Grid, start: Pos, end: Pos)
    requires Wf(grid) && Wf(g) && |g| == |grid|
  {
    forall p :: InBounds(grid, p) && p != start && p != end ==> SearchRetag(StateAt(grid, p), StateAt(g, p))
  }

  /** When the predecessor links are neighbour links that each add one to
      `d`, `d` bounds every walk from `start` from below and only `start`
      lacks a predecessor, the chain from `t` back to the first cell without
      a predecessor ends at `start` and is a shortest path. */
  lemma ChainShortest(grid: Grid, start: Pos, t: Pos, cameFrom: map<Pos, Pos>, d: map<Pos, nat>, trail: seq<Pos>)
    requires Wf(grid)
    requires start !in cameFrom && start in d && d[start] == 0
    requires forall v {:trigger cameFrom[v]} :: v in cameFrom ==> Edge(grid, cameFrom[v], v)
    requires forall v {:trigger cameFrom[v]} :: v in cameFrom ==> v in d && cameFrom[v] in d && d[v] == d[cameFrom[v]] + 1
    requires forall v :: v in d ==> v == start || v in cameFrom
    requires LowerBounds(grid, start, d)
    requires IsChain(cameFrom, t, trail) && Last(trail) !in cameFrom
    ensures Last(trail) == start
    ensures ShortestIs(grid, start, t, |trail|)
  {
    ChainDistance(cameFrom, d, t, trail);
    assert Last(trail) == trail[|trail| - 1];
    ChainWalk(grid, cameFrom, t, trail);
    var w := Forwards(trail, t);
    assert WalkFromTo(grid, w, start, t) && |w| - 1 == |trail|;
  }
}

=== FILE: walks.dfy ===
/** Walks through the neighbour graph of a grid: the graph both searches
    explore once every cell's neighbour list has been computed. A walk is a
    non-empty sequence of cells, each a neighbour of the one before it; its
    length is its number of steps. */
module Walks {
  import opened Grid

  /** `q` is in the neighbour list of `p` (see `Neighbours`): both are cells
      of the grid, they are adjacent and `q` is not a barrier. */
  predicate Edge(g: Grid, p: Pos, q: Pos)
    requires Wf(g)
  {
    InBounds(g, p) && InBounds(g, q) && Adjacent(p, q) && StateAt(g, q) != Barrier
  }

  function Last<T>(w: seq<T>): T
    requires |w| > 0
  {
    w[|w| - 1]
  }

  ghost predicate IsWalk(g: Grid, w: seq<Pos>)
    requires Wf(g)
  {
    && |w| > 0
    && InBounds(g, w[0])
    && forall i :: 0 <= i < |w| - 1 ==> Edge(g, w[i], w[i + 1])
  }

  ghost predicate WalkFromTo(g: Grid, w: seq<Pos>, s: Pos, t: Pos)
    requires Wf(g)
  {
    IsWalk(g, w) && w[0] == s && Last(w) == t
  }

  ghost predicate Reachable(g: Grid, s: Pos, t: Pos)
    requires Wf(g)
  {
    exists w {:trigger WalkFromTo(g, w, s, t)} :: WalkFromTo(g, w, s, t)
  }

  /** `k` is the least number of steps of a walk from `s` to `t`. */
  ghost predicate ShortestIs(g: Grid, s: Pos, t: Pos, k: nat)
    requires Wf(g)
  {
    && (exists w {:trigger WalkFromTo(g, w, s, t)} :: WalkFromTo(g, w, s, t) && |w| - 1 == k)
    && (forall w {:trigger WalkFromTo(g, w, s, t)} :: WalkFromTo(g, w, s, t) ==> |w| - 1 >= k)
  }

  /** The shortest distance is a function of its endpoints; in particular
      any two searches that both report a shortest path report the same
      length. */
  lemma ShortestUnique(g: Grid, s: Pos, t: Pos, k1: nat, k2: nat)
    requires Wf(g) && ShortestIs(g, s, t, k1) && ShortestIs(g, s, t, k2)
    ensures k1 == k2
  {
    var w1 :| WalkFromTo(g, w1, s, t) && |w1| - 1 == k1;
    var w2 :| WalkFromTo(g, w2, s, t) && |w2| - 1 == k2;
    assert k2 <= k1 && k1 <= k2;
  }

  /** A cell reaches itself in zero steps and in no fewer. */
  lemma ShortestSelf(g: Grid, s: Pos)
    requires Wf(g) && InBounds(g, s)
    ensures ShortestIs(g, s, s, 0)
  {
    assert WalkFromTo(g, [s], s, s);
  }

  lemma WalkPrefix(g: Grid, w: seq<Pos>, k: nat)
    requires Wf(g) && IsWalk(g, w) && 0 < k <= |w|
    ensures IsWalk(g, w[..k]) && Last(w[..k]) == w[k - 1]
  {
  }

  /** Every walk from `s` that ends at a cell of `d` has at least `d` of
      that cell steps. */
  ghost predicate LowerBounds(g: Grid, s: Pos, d: map<Pos, nat>)
    requires Wf(g)
  {
    forall w {:trigger IsWalk(g, w)} :: IsWalk(g, w) && w[0] == s && Last(w) in d ==> |w| - 1 >= d[Last(w)]
  }

  /** Every neighbour of a cell of `done` is in `seen`. */
  ghost predicate NeighboursWithin(g: Grid, done: set<Pos>, seen: set<Pos>)
    requires Wf(g)
  {
    forall u, v :: u in done && Edge(g, u, v) ==> v in seen
  }

  /** A walk that leaves `seen` passes through `frontier` before its last
      step, when every other cell of `seen` has all its neighbours in
      `seen`. */
  lemma {:induction false} FrontierCut(g: Grid, w: seq<Pos>, seen: set<Pos>, frontier: set<Pos>)
    requires Wf(g) && IsWalk(g, w)
    requires w[0] in seen && Last(w) !in seen
    requires NeighboursWithin(g, seen - frontier, seen)
    ensures exists i :: 0 <= i < |w| - 1 && w[i] in frontier
  {
    assert |w| > 1;
    if w[0] !in frontier {
      assert Edge(g, w[0], w[1]);
      var rest := w[1..];
      assert IsWalk(g, rest) by {
        forall i | 0 <= i < |rest| - 1
          ensures Edge(g, rest[i], rest[i + 1])
        {
          assert Edge(g, w[i + 1], w[i + 2]);
        }
      }
      FrontierCut(g, rest, seen, frontier);
      var i :| 0 <= i < |rest| - 1 && rest[i] in frontier;
      assert w[i + 1] in frontier;
    }
  }

  /** The distance invariant the two searches share: if every cell of the
      frontier is recorded at distance at least `m`, a cell outside `seen`
      is at least `m + 1` steps from the start. */
  lemma Beyond(g: Grid, s: Pos, w: seq<Pos>, seen: set<Pos>, frontier: set<Pos>, d: map<Pos, nat>, m: nat)
    requires Wf(g) && IsWalk(g, w) && w[0] == s && s in seen && Last(w) !in seen
    requires NeighboursWithin(g, seen - frontier, seen)
    requires forall f :: f in frontier ==> f in d && d[f] >= m
    requires LowerBounds(g, s, d)
    ensures |w| - 1 >= m + 1
  {
    FrontierCut(g, w, seen, frontier);
    var i :| 0 <= i < |w| - 1 && w[i] in frontier;
    WalkPrefix(g, w, i + 1);
    var pre := w[..i + 1];
    assert pre[0] == s && Last(pre) in d;
    assert |pre| - 1 >= d[w[i]];
  }

  /** Once no cell of `seen` has a neighbour outside it, nothing outside
      `seen` is reachable from inside it. */
  lemma Unreachable(g: Grid, s: Pos, t: Pos, seen: set<Pos>)
    requires Wf(g) && s in seen && t !in seen
    requires NeighboursWithin(g, seen, seen)
    ensures !Reachable(g, s, t)
  {
    if w :| WalkFromTo(g, w, s, t) {
      assert seen - {} == seen;
      FrontierCut(g, w, seen, {});
    }
  }

  /** The walk that follows a predecessor chain forwards: `trail` lists the
      predecessors of `t` from the nearest back to the first. */
  function Forwards(trail: seq<Pos>, t: Pos): (w: seq<Pos>)
    ensures |w| == |trail| + 1
  {
    if trail == [] then [t] else [Last(trail)] + Forwards(trail[..|trail| - 1], t)
  }

  /** `trail` is the predecessor chain of `t` in `cameFrom`: the
      predecessor of `t`, then its predecessor, and so on. */
  ghost predicate IsChain(cameFrom: map<Pos, Pos>, t: Pos, trail: seq<Pos>)
  {
    && |trail| > 0
    && t in cameFrom && trail[0] == cameFrom[t]
    && forall k :: 0 <= k < |trail| - 1 ==> trail[k] in cameFrom && trail[k + 1] == cameFrom[trail[k]]
  }

  /** When every predecessor link is a neighbour link, a predecessor chain
      read backwards is a walk from its last cell to `t`, one step per
      chain entry. */
  lemma {:induction false} ChainWalk(g: Grid, cameFrom: map<Pos, Pos>, t: Pos, trail: seq<Pos>)
    requires Wf(g) && IsChain(cameFrom, t, trail)
    requires forall v {:trigger cameFrom[v]} :: v in cameFrom ==> Edge(g, cameFrom[v], v)
    ensures WalkFromTo(g, Forwards(trail, t), Last(trail), t)
    ensures |Forwards(trail, t)| - 1 == |trail|
  {
    var w := Forwards(trail, t);
    var m := |trail|;
    var pre := trail[..m - 1];
    if m == 1 {
      assert pre == [];
      assert w == [trail[0]] + Forwards(pre, t);
      assert w == [trail[0], t];
      assert Edge(g, trail[0], t);
    } else {
      assert IsChain(cameFrom, t, pre);
      ChainWalk(g, cameFrom, t, pre);
      var rest := Forwards(pre, t);
      assert w == [trail[m - 1]] + rest;
      assert trail[m - 1] == cameFrom[trail[m - 2]];
      WalkCons(g, trail[m - 1], rest);
    }
  }

  /** A step into the start of a walk extends it. */
  lemma WalkCons(g: Grid, u: Pos, w: seq<Pos>)
    requires Wf(g) && IsWalk(g, w) && Edge(g, u, w[0])
    ensures IsWalk(g, [u] + w) && ([u] + w)[0] == u && Last([u] + w) == Last(w)
  {
    var w' := [u] + w;
    forall i | 0 < i < |w'| - 1
      ensures Edge(g, w'[i], w'[i + 1])
    {
      assert w'[i] == w[i - 1] && w'[i + 1] == w[i];
    }
  }

  /** Along a predecessor chain whose links each add one to `d`, the k-th
      entry lies k + 1 below `t`. */
  lemma {:induction false} ChainDistance(cameFrom: map<Pos, Pos>, d: map<Pos, nat>, t: Pos, trail: seq<Pos>)
    requires IsChain(cameFrom, t, trail)
    requires forall v {:trigger cameFrom[v]} :: v in cameFrom ==> v in d && cameFrom[v] in d && d[v] == d[cameFrom[v]] + 1
    ensures forall k :: 0 <= k < |trail| ==> trail[k] in d && d[trail[k]] + k + 1 == d[t]
  {
    if |trail| > 1 {
      var pre := trail[..|trail| - 1];
      assert IsChain(cameFrom, t, pre);
      ChainDistance(cameFrom, d, t, pre);
      var k := |trail| - 2;
      assert trail[k] == pre[k];
      assert trail[k + 1] == cameFrom[trail[k]];
    }
  }

  /** A walk never covers more Manhattan distance than it has steps. */
  lemma {:induction false} WalkManhattan(g: Grid, w: seq<Pos>)
    requires Wf(g) && IsWalk(g, w)
    ensures H(w[0], Last(w)) <= |w| - 1
  {
    if |w| > 1 {
      var pre := w[..|w| - 1];
      WalkPrefix(g, w, |w| - 1);
      WalkManhattan(g, pre);
      assert Edge(g, w[|w| - 2], Last(w));
    }
  }

  /** The neighbouring cell one step from `s` towards `t`: rows first,
      then columns. */
  function Toward(s: Pos, t: Pos): (r: Pos)
    requires s != t
    ensures Adjacent(s, r) && H(r, t) + 1 == H(s, t)
  {
    if s.row < t.row then Pos(s.row + 1, s.col)
    else if s.row > t.row then Pos(s.row - 1, s.col)
    else if s.col < t.col then Pos(s.row, s.col + 1)
    else Pos(s.row, s.col - 1)
  }

  /** The walk from `s` to `t` that keeps stepping towards `t`. */
  function Staircase(s: Pos, t: Pos): (w: seq<Pos>)
    ensures |w| == H(s, t) + 1 && w[0] == s && Last(w) == t
    decreases H(s, t)
  {
    if s == t then [s] else [s] + Staircase(Toward(s, t), t)
  }

  /** On a grid without barriers the staircase between two cells is a
      walk: it stays inside the rectangle they span. */
  lemma {:induction false} StaircaseWalk(g: Grid, s: Pos, t: Pos)
    requires Wf(g) && InBounds(g, s) && InBounds(g, t)
    requires forall p :: InBounds(g, p) ==> StateAt(g, p) != Barrier
    ensures WalkFromTo(g, Staircase(s, t), s, t)
    decreases H(s, t)
  {
    if s != t {
      var n := Toward(s, t);
      StaircaseWalk(g, n, t);
      WalkCons(g, s, Staircase(n, t));
    }
  }

  /** On a grid without barriers the shortest distance between two cells
      is their Manhattan distance `h`. */
  lemma NoBarrierDistance(g: Grid, s: Pos, t: Pos)
    requires Wf(g) && InBounds(g, s) && InBounds(g, t)
    requires forall p :: InBounds(g, p) ==> StateAt(g, p) != Barrier
    ensures ShortestIs(g, s, t, H(s, t))
  {
    StaircaseWalk(g, s, t);
    forall w | WalkFromTo(g, w, s, t)
      ensures |w| - 1 >= H(s, t)
    {
      WalkManhattan(g, w);
    }
  }

  /** On a 5 by 5 grid without barriers opposite corners are 8 steps
      apart. */
  lemma CornerToCorner(g: Grid)
    requires Wf(g) && |g| == 5
    requires forall p :: InBounds(g, p) ==> StateAt(g, p) != Barrier
    ensures ShortestIs(g, Pos(0, 0), Pos(4, 4), 8)
  {
    NoBarrierDistance(g, Pos(0, 0), Pos(4, 4));
  }

  /** `d` with every cell of `added` recorded at distance `k`. */
  function Extend(d: map<Pos, nat>, added: set<Pos>, k: nat): (r: map<Pos, nat>)
    ensures r.Keys == d.Keys + added
    ensures forall v {:trigger r[v]} :: v in r ==> r[v] == if v in added then k else d[v]
  {
    d + map v | v in added :: k
  }

  /** Recording the cells of `added` at distance `m + 1` keeps `d` a lower
      bound on walk lengths, when those cells lie outside `seen`, the
      frontier is recorded at `m` or more and every other cell of `seen` has
      all its neighbours in `seen`. */
  lemma ExtendLowerBounds(g: Grid, s: Pos, d: map<Pos, nat>, seen: set<Pos>, frontier: set<Pos>, m: nat, added: set<Pos>)
    requires Wf(g) && s in seen && d.Keys == seen
    requires LowerBounds(g, s, d)
    requires NeighboursWithin(g, seen - frontier, seen)
    requires forall f :: f in frontier ==> f in d && d[f] >= m
    requires added !! seen
    ensures LowerBounds(g, s, Extend(d, added, m + 1))
  {
    var d' := Extend(d, added, m + 1);
    forall w | IsWalk(g, w) && w[0] == s && Last(w) in d'
      ensures |w| - 1 >= d'[Last(w)]
    {
      if Last(w) !in d {
        Beyond(g, s, w, seen, frontier, d, m);
      }
    }
  }
}

=== FILE: wrappers.dfy ===
/** The optional-value datatype the model uses where the program returns
    `None` or stores the sentinel `float('inf')`. */
module Wrappers {

  datatype Option<+T> = None | Some(value: T)
}
